=== FILE: README.md ===
# StuGrader rubric parsing and score aggregation in Dafny

StuGrader grades a student assignment against a free-text rubric. It has three graders and a
rubric parser. This project models the deterministic parts of all of them and proves
properties of that model. The neural parts are inputs:

- **`AIGrader` (grading_model.py)**:
  - splits the rubric into stripped, non-blank lines;
  - reads a point value per line, trying five patterns in order (default 10);
  - extracts requirement clauses after eight cue words, falling back to the whole line;
  - classifies each requirement by a keyword table and extracts its keywords;
  - judges each criterion: the level comes from the similarity, and the score averages the
    similarity with the fraction of keywords found;
  - sums the points and splits the results into strengths and areas for improvement.

  Modules: `RubricParser`, `Fulfillment`, `Grading`.
- **`AssignmentAnalyzer` (model.py)**:
  - splits the rubric on blank lines, with a default of 5 points and no fallback;
  - gives all-or-nothing credit when the similarity exceeds 0.7;
  - words its feedback by the overlap between the requirement's and the assignment's words.

  Module: `Analyzer`.
- **The post-processing of the language-model `AIGrader` (grading_model_2.py)**:
  - parses "Required:", "Provided:", "Missing:" and "Improve:" lines into items;
  - deducts min(2 × words, 10) per gap from 100, floored at 0;
  - collects the improvement actions.

  Module: `LlmFeedback`.
- **`TextProcessor.extract_requirements` (text_processor.py)**:
  - splits on blank lines, with a default of 0 points;
  - tags each requirement with its pattern's type and a `required` flag.

  Module: `TextProcessor`.

Shared modules:
- `Wrappers`: `Option` and `Result`.
- `Seqs`: filter, map, flat-map, subsequence.
- `Text`: ASCII whitespace and case, `strip`, `split`, `replace`, `find`, digits.
- `Patterns`: one hand-written scanner for each fixed regular expression the code uses, with
  Python `re` semantics:
  - `re.IGNORECASE` on ASCII letters;
  - `.` never matches a line feed;
  - `$` matches at the end of the text or just before a final line feed;
  - `re.search` is the leftmost match;
  - `re.finditer` gives successive non-overlapping matches.

Inputs:
- The similarity of a requirement to the assignment (BERT embeddings and cosine similarity)
  is a parameter `sim: string -> real`.
- The language model's output is an arbitrary string `analysis`.

Error path: `_check_requirement_fulfillment` divides by the number of keywords without a guard.
- A criterion without keywords yields `Failure(DivisionByZero)`.
- That failure aborts `grade_assignment`, as the exception does in Python.

Behaviour of the code that is easy to miss:
- `AIGrader` splits the rubric on every line feed, so each non-blank line is a section;
  `AssignmentAnalyzer` and `TextProcessor` split on blank lines instead.
- Overlapping cue matches are all kept (`RubricParser.EveryCueMatchKept`). A line such as
  "Students must explain the causes of inflation. 20 points." yields two criteria:
  - "explain the causes of inflation" from the `must` pattern;
  - "the causes of inflation" from the `explain` pattern.
- The lookahead `(?=\.|$)` of `AssignmentAnalyzer` and `TextProcessor` also succeeds just
  before a final line feed, because Python's `$` matches there.

## Model

| member | source | states |
|---|---|---|
| RubricParser.Sections | app/ml_model/grading_model.py:27 | every section is non-empty and has no surrounding whitespace |
| RubricParser.SectionsAreStrippedLines | app/ml_model/grading_model.py:27 | the sections are exactly the stripped non-blank lines: each comes from some line, every non-blank line appears as often as it occurs among the stripped lines, in line order |
| RubricParser.NonBlankLines | app/ml_model/grading_model.py:27 | the list comprehension keeps a piece iff it is non-blank after stripping, and keeps the line order |
| RubricParser.NonBlankCounts | app/ml_model/grading_model.py:27 | a stripped line that is not empty is kept exactly as many times as it occurs, and the empty one never |
| RubricParser.PointsOfFirstMatchingPattern | app/ml_model/grading_model.py:104-119 | the points are 10 when no pattern matches anywhere; otherwise they are the leftmost match of the first pattern in list order that matches, even when a later pattern matches earlier in the text |
| RubricParser.FirstSome | app/ml_model/grading_model.py:114-119 | the first present value in list order, or none when all are absent |
| RubricParser.ExtractRequirements | app/ml_model/grading_model.py:145-170 | a section that is not blank yields at least one requirement; every requirement is non-empty and stripped |
| RubricParser.RequirementsFromClauses | app/ml_model/grading_model.py:160-168 | with at least one non-blank capture, requirement i is the stripped capture of clause i, and the clauses are ordered by cue index and then by position in the section; with none, the result is the stripped section if it is non-blank, and empty otherwise |
| RubricParser.FallbackWhenNoCue | app/ml_model/grading_model.py:167-168 | when no cue pattern matches, the result is exactly the stripped section |
| RubricParser.EveryCueMatchKept | app/ml_model/grading_model.py:160-165 | every non-blank capture of every cue pattern is a requirement, so overlapping cues all contribute |
| RubricParser.ClassifyFirstMatch | app/ml_model/grading_model.py:121-136 | the category is 'general' iff no table entry has a keyword in the lower-cased requirement; otherwise it is the first such entry in table order |
| RubricParser.FirstCategory | app/ml_model/grading_model.py:132-136 | the index found has a matching keyword and no earlier table entry does |
| RubricParser.KeyConceptsAreFilteredTokens | app/ml_model/grading_model.py:138-143 | a word is a keyword iff it is a lower-cased token that is no stop word and longer than three characters; the keywords are a subsequence of the tokens with every repetition kept |
| RubricParser.TwoFiltersAreOne | app/ml_model/grading_model.py:142-143 | the stop-word filter followed by the length filter equals one filter by both tests |
| RubricParser.StopWordsAreShort | app/ml_model/grading_model.py:141-143 | every stop word has at most three letters, so the length test alone decides |
| RubricParser.SectionCriteria | app/ml_model/grading_model.py:30-43 | one criterion per requirement of the section, in order, each with the section's points |
| RubricParser.CriterionFromSection | app/ml_model/grading_model.py:21-45 | every criterion of the rubric is a criterion of one of its sections |
| RubricParser.SectionCriterionOrigin | app/ml_model/grading_model.py:30-43 | a section's criterion carries that section's points, one of its requirements, and that requirement's category and keywords |
| RubricParser.RubricCriteriaCoverSections | app/ml_model/grading_model.py:21-45 | no section is lost: every criterion of every section is a criterion of the rubric, and there are at least as many criteria as sections |
| RubricParser.SectionCriteriaInPlace | app/ml_model/grading_model.py:29-43 | the criteria of section k appear whole and in order, after those of the earlier sections and before those of the later ones |
| Fulfillment.LevelIntervals | app/ml_model/grading_model.py:176-184 | Met iff similarity > 0.85; Partially Met iff 0.65 < similarity <= 0.85; Not Met iff similarity <= 0.65 |
| Fulfillment.LevelMonotone | app/ml_model/grading_model.py:176-184 | a higher similarity never gives a lower level |
| Fulfillment.HitsAreFound | app/ml_model/grading_model.py:186-187 | the hit count is the number of keywords, with repetitions, that occur in the lower-cased text |
| Fulfillment.HitsAll | app/ml_model/grading_model.py:186-187 | all keywords count as hits iff every keyword occurs in the lower-cased text |
| Fulfillment.HitsNone | app/ml_model/grading_model.py:186-187 | no hit iff no keyword occurs in the lower-cased text |
| Fulfillment.KeywordPresence | app/ml_model/grading_model.py:186-187 | a division-by-zero failure iff there are no keywords; otherwise the value times the number of keywords is the hit count (the fraction of keywords found); it lies in [0,1] and is 1 iff every keyword occurs and 0 iff none does |
| Fulfillment.FinalScore | app/ml_model/grading_model.py:189 | the unclamped mean: it lies between similarity and presence, at equal distance from both |
| Fulfillment.CheckFulfillment | app/ml_model/grading_model.py:172-200 | fails iff there are no keywords; the level depends on the similarity only; the score is the mean of similarity and keyword presence, so it lies between sim/2 and (sim+1)/2, reaching the top iff every keyword occurs and the bottom iff none does, and is in [0,1] for a similarity in [0,1]; the feedback and suggestions are those of the criterion at its level |
| Fulfillment.LevelAndScoreDisagree | app/ml_model/grading_model.py:176-189 | with similarity 1.0 and no keyword present, a criterion is Met yet scores only 0.5 |
| Fulfillment.FeedbackByLevel | app/ml_model/grading_model.py:202-223 | the message for a Met criterion names the criterion's category; a Met criterion gets one suggestion, the other levels three |
| Grading.Round | app/ml_model/grading_model.py:77 | the result is within 1/2 of the input, and an exact half goes to the even neighbour |
| Grading.RoundWithin | app/ml_model/grading_model.py:71-77 | rounding a value between 0 and a whole number of points stays between them |
| Grading.Scale | app/ml_model/grading_model.py:71 | the earned points divided by the points is the score (nothing is earned from 0 points); a score in [0,1] earns between nothing and all the points; score 1 earns all, score 0 none |
| Grading.GradeCriterion | app/ml_model/grading_model.py:63-82 | fails iff the criterion has no keywords; the points earned are the criterion's points scaled by the fulfillment score; the row keeps the requirement, points, level, feedback and suggestions, and shows the earned points rounded; with a similarity in [0,1] both lie in [0, points] |
| Grading.GradeAll | app/ml_model/grading_model.py:54-82 | fails iff some criterion has no keywords; otherwise result i is the grading of criterion i, with its requirement, points possible and level |
| Grading.GradeAllBounded | app/ml_model/grading_model.py:71-77 | a criterion with similarity in [0,1] earns between 0 and its points, before and after rounding |
| Grading.PossibleIsTotal | app/ml_model/grading_model.py:52 | the rows' points possible add up to the sum of the criteria's points |
| Grading.EarnedBounded | app/ml_model/grading_model.py:72 | when no result earns less than 0 or more than its points, neither does the sum |
| Grading.EarnedWithinTotal | app/ml_model/grading_model.py:52-72 | the total is the sum of the criteria's points; with similarities in [0,1] the points earned lie in [0, total] |
| Grading.Percentage | app/ml_model/grading_model.py:84 | 0 when the total is 0; otherwise score × total = earned × 100; in [0,100] when earned lies in [0, total] |
| Grading.OverallPartitions | app/ml_model/grading_model.py:225-234 | strengths and areas for improvement together hold every requirement exactly once; there are as many strengths as Met rows |
| Grading.StrengthsAreMetRows | app/ml_model/grading_model.py:227-228 | the strengths are the requirements of the Met rows and the areas for improvement those of all other rows, each in row order |
| Grading.OverallCount | app/ml_model/grading_model.py:225-234 | the strengths and the areas for improvement together number the results |
| Grading.StrengthsInOrder | app/ml_model/grading_model.py:227 | the strengths keep the order of the results |
| Grading.ImprovementsInOrder | app/ml_model/grading_model.py:228 | the areas for improvement keep the order of the results |
| Grading.CountsAddUp | app/ml_model/grading_model.py:236-245 | the Met, Partially Met and Not Met counts add up to the number of results |
| Grading.GradeAssignment | app/ml_model/grading_model.py:47-88 | fails iff some criterion has no keywords; total points is the sum of the criteria's points; points earned is the sum of the criteria's unrounded earned points; the score is their percentage, 0 when the total is 0; row i is the graded row of criterion i; the overall feedback is that of the rows; with similarities in [0,1], earned is in [0,total] and score in [0,100]; strengths and improvements together number the criteria |
| Grading.AnalyzeRubricAndAssignment | app/ml_model/grading_model.py:13-19 | fails (division by zero) iff some extracted criterion has no keywords; otherwise one row per extracted criterion, each the graded row of that criterion; the total is their points, the earned points are the sum of the graded criteria, the score is their percentage and the overall feedback is built from the rows |
| Analyzer.SectionRequirements | app/ml_model/model.py:51-73 | every requirement is non-empty and stripped and carries the section's points |
| Analyzer.SectionPointsDefault | app/ml_model/model.py:53-54 | a section without an "N point(s)" mention is worth 5; otherwise it is worth the number of the leftmost mention |
| Analyzer.NoFallback | app/ml_model/model.py:65-73 | a section in which no cue matches contributes no requirement |
| Analyzer.SectionRequirementsInCueOrder | app/ml_model/model.py:65-73 | requirement texts are the stripped captures, ordered by cue and then by position |
| Analyzer.RequirementFromSection | app/ml_model/model.py:45-75 | every requirement of the rubric is the j-th requirement of some blank-line separated section k; it is non-empty and trimmed and carries that section's points |
| Analyzer.IntersectionMeansSharedWord | app/ml_model/model.py:98-102 | the word sets intersect iff the two texts share a lower-cased word |
| Analyzer.FeedbackNamesVerdict | app/ml_model/model.py:94-107 | the feedback opens with "Successfully addressed" iff met, "Partially addressed" iff not met but some word is shared, and "Missing requirement" otherwise |
| Analyzer.Judge | app/ml_model/model.py:22-85 | met iff similarity > 0.7 strictly; all of the points when met and none otherwise; the feedback is the generated message for that verdict |
| Analyzer.ScoreWithinAvailable | app/ml_model/model.py:24-35 | the total score never exceeds the available points, and equals them iff every requirement with points is met |
| Analyzer.EstimatedScore | app/ml_model/model.py:37-41 | in [0,100]; 0 when no points are available; otherwise score × available = total × 100 |
| Analyzer.Analyze | app/ml_model/model.py:12-43 | one entry per extracted requirement, judged in order; the estimated score is the percentage of available points earned, in [0,100], and 0 when no points are available |
| LlmFeedback.Deduction | app/ml_model/grading_model_2.py:94-95 | a gap costs at most 10 points, and twice its word count when that is less |
| LlmFeedback.ImpactRoundTrip | app/ml_model/grading_model_2.py:60-95 | searching the points-impact text for `-(\d+)` gives back exactly the deduction written, and nothing for "No points deducted" |
| LlmFeedback.FirstDashNumber | app/ml_model/grading_model_2.py:60 | none iff no `-` followed by a digit occurs; otherwise the number at the leftmost occurrence |
| LlmFeedback.CalculateScore | app/ml_model/grading_model_2.py:54-65 | the score is in [0,100]; it is 0 iff the deductions reach 100; otherwise score + deductions = 100 |
| LlmFeedback.UniformDeductions | app/ml_model/grading_model_2.py:58-62 | items sharing one points impact deduct its value once each |
| LlmFeedback.ScoreOfUniform | app/ml_model/grading_model_2.py:54-95 | for items that share one gap, the score is 100 minus count × deduction floored at 0, or 100 when nothing is missing |
| LlmFeedback.ScoreOfAnalysis | app/ml_model/grading_model_2.py:54-95 | the score of a parsed analysis follows from the item count and the first "Missing:" line alone |
| LlmFeedback.ParseFrom | app/ml_model/grading_model_2.py:71-87 | every item carries the given missing and improvement texts and the points impact of the missing text |
| LlmFeedback.ParseFeedback | app/ml_model/grading_model_2.py:67-89 | every item shares the texts of the first "Missing:" and first "Improve:" lines of the whole analysis |
| LlmFeedback.ParseFromIsItemsFrom | app/ml_model/grading_model_2.py:69-87 | the loop that carries the current requirement forward agrees with the reference that looks back for the last "Required:" line |
| LlmFeedback.ItemsCount | app/ml_model/grading_model_2.py:76-87 | there is one item per line that mentions "Provided:" but not "Required:" |
| LlmFeedback.ParseFeedbackItems | app/ml_model/grading_model_2.py:67-89 | the items are the reference items (one per item line, in line order, naming the requirement then in force, "" before any); their number is the number of item lines |
| LlmFeedback.ActionLineHasColon | app/ml_model/grading_model_2.py:101-102 | every action line has a colon, so taking the second piece never fails |
| LlmFeedback.AfterFirstColonIsSecondPiece | app/ml_model/grading_model_2.py:102 | the text after the first colon is the second piece of `split(':', 1)` |
| LlmFeedback.FirstAddPoints | app/ml_model/grading_model_2.py:103 | none iff "add N points" occurs nowhere; otherwise the digits of the leftmost occurrence |
| LlmFeedback.ActionShape | app/ml_model/grading_model_2.py:102-108 | the action ends with the stripped text after the colon; when the lower-cased text contains "add N points" the action is exactly "Complete this to gain N points: " followed by that text (prefix and suffix with nothing between), N taken from the first occurrence; otherwise the action is that text unchanged |
| LlmFeedback.ImprovementActionsFromLines | app/ml_model/grading_model_2.py:97-109 | one action per action line, in line order, and none for other lines |
| TextProcessor.SectionRequirements | app/ml_model/text_processor.py:18-44 | every requirement is non-empty and stripped, carries the section's points, and is required iff its type is 'required' |
| TextProcessor.RequirementsTaggedByPattern | app/ml_model/text_processor.py:24-44 | each requirement carries the type of the pattern that captured it; it is required iff that pattern is must, should or need(s) to; order is by pattern, then by position |
| TextProcessor.NoFallback | app/ml_model/text_processor.py:11-46 | a rubric in which no pattern matches in any blank-line separated section yields no requirement at all |
| TextProcessor.SectionPointsDefault | app/ml_model/text_processor.py:20-21 | a section without an "N point(s)" mention is worth 0; otherwise it is worth the number of the leftmost mention |
| TextProcessor.RequirementFromSection | app/ml_model/text_processor.py:11-46 | every requirement is the j-th requirement of some blank-line separated section k; it is non-empty and trimmed, carries that section's points, and is required iff its type is required |
| Patterns.PointValue | app/ml_model/grading_model.py:115-117 | no value iff the pattern matches nowhere; otherwise the number captured by the leftmost match |
| Patterns.FirstPointMatch | app/ml_model/grading_model.py:115 | the leftmost start of a match, or none when there is no match |
| Patterns.FindAll | app/ml_model/grading_model.py:161 | successive matches, each starting at or after the previous one's end |
| Patterns.FindAllMissesNothing | app/ml_model/grading_model.py:161 | every position at or after the scan start where the pattern matches lies inside a reported match: no match is skipped |
| Patterns.ClausesSound | app/ml_model/grading_model.py:160-165 | every kept clause is a match of its cue's pattern |
| Patterns.ClausesComplete | app/ml_model/grading_model.py:160-165 | every non-blank match of every cue is kept |
| Patterns.NoClauses | app/ml_model/grading_model.py:160-165 | a text in which no cue pattern matches anywhere yields no clause |
| Patterns.ClausesOrdered | app/ml_model/grading_model.py:160-165 | kept clauses are ordered by cue index and then by position |
| Text.Strip | app/ml_model/grading_model.py:27 | the result has no surrounding whitespace, is no longer than the input, and is empty iff the input is all whitespace |
| Text.StripRemovesOuterSpace | app/ml_model/grading_model.py:27 | the result is a slice of the input with only whitespace cut at either end |
| Text.SplitJoin | app/ml_model/grading_model.py:27 | joining the pieces of a split with the separator gives back the input |
| Text.Split | app/ml_model/model.py:49 | at least one piece, and no piece contains the separator |
| Text.SplitLeftmost | app/ml_model/model.py:49 | every cut is at the leftmost occurrence: no piece but the last, followed by the separator, holds it before the cut; with SplitJoin this fixes the pieces of `split(sep)` for any separator |
| Text.WordsKeepContent | app/ml_model/grading_model.py:140 | the tokens glued together are the input with its whitespace removed |
| Text.WordsAreRuns | app/ml_model/grading_model.py:140 | every token of `split()` is non-empty and free of whitespace |
| Text.WordsOfSpace | app/ml_model/grading_model.py:140 | a text of whitespace only splits into no tokens |
| Text.WordsOfWord | app/ml_model/grading_model.py:140 | a non-empty run of non-whitespace characters is exactly one token |
| Text.WordsAtSpace | app/ml_model/grading_model.py:140 | every whitespace character separates tokens: the tokens of `a`, one whitespace character, then `b` are the tokens of `a` followed by those of `b`; with the two rows above this fixes the tokens as the maximal non-whitespace runs |
| Text.RemoveAllIsSplitJoin | app/ml_model/grading_model_2.py:73 | `replace(tag, "")` is splitting at the tag and joining with nothing |
| Text.NatToString | app/ml_model/grading_model.py:244-245 | a non-empty digit string with no leading zero except for 0 |
| Text.DigitsRoundTrip | app/ml_model/grading_model_2.py:62 | reading a formatted number back with `int` gives the number |
| Seqs.FilterIsSubsequence | app/ml_model/grading_model.py:142-143 | a list comprehension with a condition keeps the order of its input |
| Seqs.FilterCounts | app/ml_model/grading_model.py:142-143 | a list comprehension with a condition keeps every repetition of a kept value |
| Seqs.FilterMapIsMapOfFilter | app/ml_model/grading_model_2.py:100-108 | the appending loop maps exactly the kept lines, in order |
| Seqs.TryMap | app/ml_model/grading_model.py:56-80 | the loop fails iff some element fails; otherwise one result per element, in order |

## Left out

- BERT tokenizer, model loading, mean-pooled embeddings and cosine similarity: foreign
  machine-learning calls and floating-point maths. The similarity is the parameter `sim`.
- Flan-T5 prompt construction and `generate` in grading_model_2.py: a foreign,
  nondeterministic call. Its output is the arbitrary string `analysis`.
- `_extract_strengths` and `_extract_score_justification`: called by
  `analyze_rubric_and_assignment` in grading_model_2.py but never defined, so there is
  nothing to model. That method as a whole is left out for the same reason; its helpers are
  modelled.
- Floating point: all arithmetic is on exact reals.
- Grading.Round: rounds the exact real with ties to even, which is Python's `round` on a
  value that a binary float represents exactly. The float error of Python is not modelled.
- Grading.GradeAssignment: leaves the report's score and points earned unrounded. Python's
  `round(x, 1)` and `round(x, 2)` on binary floats are not modelled; the integer total needs
  no rounding.
- Analyzer.Analyze: leaves `estimatedScore` unrounded (`round(x, 1)` on a float). Its value
  is stated by `Analyzer.EstimatedScore`.
- LlmFeedback.CalculateScore: `round(final_score, 1)` of an integer is that integer, so
  nothing is lost.
- Unicode: whitespace, digits and case folding are ASCII only. Python's `str.split`,
  `str.strip`, `\s`, `\d` and `lower()` also cover other Unicode characters.
- RubricParser.ExtractPoints, RubricParser.Classify, RubricParser.KeyConcepts,
  LlmFeedback.PointsImpact, LlmFeedback.Action and LlmFeedback.ImprovementActions: no
  `ensures` of their own. Their contracts are the lemmas named in the table.
- The base `score` of 1.0 / 0.5 / 0.0 in `_check_requirement_fulfillment`: computed but never
  used, so not modelled. `Fulfillment.LevelAndScoreDisagree` shows its consequence.
- The `materials_text` argument of `AssignmentAnalyzer.analyze`: never read, so it is an
  unused parameter of `Analyzer.Analyze`.
- All of app/main.py (web routing, uploads, size checks, PDF/DOCX decoding), and
  `TextProcessor.extract_text` with its file readers: I/O and library calls.
- The `__init__` methods and app/ml_model/__init__.py: model loading and re-exports only.

=== FILE: analyzer.dfy ===
/** The older analyzer (`AssignmentAnalyzer` in model.py): requirements come from blank-line
    separated sections with no fallback, each is all-or-nothing at a similarity threshold of
    0.7, and the feedback sentence depends on shared words. */
module Analyzer {
  import opened Wrappers
  import opened Text
  import Seqs
  import opened Patterns
  import Grading

  // ---------------------------------------------------------------------------------------
  // Requirements (`_extract_requirements`).

  /** The requirement cues, each followed by `\s+(.*?)(?=\.|$)`, in the order they are tried. */
  const Cues: seq<Cue> := [Word("must"), Word("should"), Word("needs to"), Word("demonstrate"), Word("include")]

  /** Points of a section without an "N point(s)" mention. */
  const DefaultPoints: nat := 5

  datatype Requirement = Requirement(text: string, points: nat)

  /** The point value of a section: the number before the first "point", else 5. */
  function SectionPoints(section: string): nat {
    match PointValue(CountThen("point"), section)
    case Some(n) => n
    case None => DefaultPoints
  }

  /** The sections: the rubric cut at every blank line ("\n\n"), kept as they are. */
  function Sections(rubric: string): seq<string> {
    Split(rubric, "\n\n")
  }

  /** The requirements of one section, all carrying the section's points. */
  function SectionRequirements(section: string): (r: seq<Requirement>)
    ensures forall i :: 0 <= i < |r| ==> r[i].text != [] && IsTrimmed(r[i].text)
    ensures forall i :: 0 <= i < |r| ==> r[i].points == SectionPoints(section)
  {
    var hits := Clauses(Cues, PeriodOrEnd, section);
    var points := SectionPoints(section);
    seq(|hits|, i requires 0 <= i < |hits| => Requirement(Strip(hits[i].m.group), points))
  }

  /** `_extract_requirements`: the requirements of every section, section by section. */
  function ExtractRequirements(rubric: string): seq<Requirement> {
    Seqs.FlatMap(SectionRequirements, Sections(rubric))
  }

  /** A section without an "N point(s)" mention is worth 5 points; otherwise it is worth the
      number of the leftmost mention. */
  lemma SectionPointsDefault(section: string)
    ensures (forall i :: 0 <= i <= |section| ==> PointMatchAt(CountThen("point"), section, i).None?) ==>
              SectionPoints(section) == DefaultPoints
    ensures forall i :: (0 <= i <= |section| && PointMatchAt(CountThen("point"), section, i).Some? &&
                         (forall j :: 0 <= j < i ==> PointMatchAt(CountThen("point"), section, j).None?)) ==>
              SectionPoints(section) == PointMatchAt(CountThen("point"), section, i).value
  {
  }

  /** There is no fallback: a section in which no cue matches contributes nothing. */
  lemma NoFallback(section: string)
    requires forall j, p :: 0 <= j < |Cues| ==> ClauseAt(Cues[j], PeriodOrEnd, section, p).None?
    ensures SectionRequirements(section) == []
  {
    NoClauses(Cues, PeriodOrEnd, section);
  }

  /** Requirement texts are the stripped captures, ordered by cue and then by position. */
  lemma SectionRequirementsInCueOrder(section: string)
    ensures |SectionRequirements(section)| == |Clauses(Cues, PeriodOrEnd, section)|
    ensures forall i :: 0 <= i < |SectionRequirements(section)| ==>
              SectionRequirements(section)[i].text == Strip(Clauses(Cues, PeriodOrEnd, section)[i].m.group)
    ensures forall i, j :: 0 <= i < j < |Clauses(Cues, PeriodOrEnd, section)| ==>
              Before(Clauses(Cues, PeriodOrEnd, section)[i], Clauses(Cues, PeriodOrEnd, section)[j])
  {
    ClausesOrdered(Cues, PeriodOrEnd, section);
  }

  /** Every requirement is the `j`-th of some section `k`; it is non-empty and trimmed and
      carries the points of that section. */
  lemma RequirementFromSection(rubric: string, i: nat) returns (k: nat, j: nat)
    requires i < |ExtractRequirements(rubric)|
    ensures k < |Sections(rubric)| && j < |SectionRequirements(Sections(rubric)[k])|
    ensures ExtractRequirements(rubric)[i] == SectionRequirements(Sections(rubric)[k])[j]
    ensures ExtractRequirements(rubric)[i].points == SectionPoints(Sections(rubric)[k])
    ensures ExtractRequirements(rubric)[i].text != [] && IsTrimmed(ExtractRequirements(rubric)[i].text)
  {
    k, j := Seqs.FlatMapOrigin(SectionRequirements, Sections(rubric), i);
  }

  // ---------------------------------------------------------------------------------------
  // Judging (`_check_requirement`, `_generate_feedback`).

  /** Whether a requirement is met: its similarity to the assignment exceeds 0.7 strictly. */
  function IsMet(sim: real): bool {
    sim > 0.7
  }

  /** The set of lower-cased words of a text (`set(text.lower().split())`). */
  function WordSet(s: string): set<string> {
    set w | w in Words(LowerString(s))
  }

  /** The requirement and the assignment share a lower-cased word. */
  predicate SharesWord(req: string, text: string) {
    exists w :: w in Words(LowerString(req)) && w in Words(LowerString(text))
  }

  /** The verdict a feedback sentence expresses. */
  datatype Verdict = Addressed | PartlyAddressed | MissingRequirement

  /** Which verdict a requirement deserves. */
  function VerdictOf(met: bool, req: string, text: string): Verdict {
    if met then Addressed else if SharesWord(req, text) then PartlyAddressed else MissingRequirement
  }

  const AddressedPrefix: string := "Successfully addressed: "
  const PartlyPrefix: string := "Partially addressed: "
  const MissingPrefix: string := "Missing requirement: "

  /** The feedback sentence for one requirement. */
  function Feedback(req: string, met: bool, text: string): string {
    if !met then
      if WordSet(req) * WordSet(text) != {} then
        PartlyPrefix + (req + ". Expand your discussion to fully meet this requirement.")
      else MissingPrefix + (req + ". Add this to your assignment.")
    else AddressedPrefix + req
  }

  /** Reads the verdict back from the opening words of a feedback sentence. */
  function ReadVerdict(msg: string): Option<Verdict> {
    if StartsWith(msg, AddressedPrefix) then Some(Addressed)
    else if StartsWith(msg, PartlyPrefix) then Some(PartlyAddressed)
    else if StartsWith(msg, MissingPrefix) then Some(MissingRequirement)
    else None
  }

  lemma StartsWithPrefix(p: string, rest: string)
    ensures StartsWith(p + rest, p)
  {
    assert (p + rest)[..|p|] == p;
  }

  /** A text does not start with a prefix whose first letter differs from its own. */
  lemma FirstLetterDiffers(msg: string, p: string)
    requires |msg| > 0 && |p| > 0 && msg[0] != p[0]
    ensures !StartsWith(msg, p)
  {
    assert |p| <= |msg| ==> msg[..|p|][0] == msg[0];
  }

  /** The word-set intersection that model.py tests is exactly "some word in common". */
  lemma IntersectionMeansSharedWord(req: string, text: string)
    ensures WordSet(req) * WordSet(text) != {} <==> SharesWord(req, text)
  {
    if SharesWord(req, text) {
      var w :| w in Words(LowerString(req)) && w in Words(LowerString(text));
      assert w in WordSet(req) * WordSet(text);
    }
  }

  lemma ReadsAddressed(rest: string)
    ensures ReadVerdict(AddressedPrefix + rest) == Some(Addressed)
  {
    StartsWithPrefix(AddressedPrefix, rest);
  }

  lemma ReadsPartly(rest: string)
    ensures ReadVerdict(PartlyPrefix + rest) == Some(PartlyAddressed)
  {
    StartsWithPrefix(PartlyPrefix, rest);
    FirstLetterDiffers(PartlyPrefix + rest, AddressedPrefix);
  }

  lemma ReadsMissing(rest: string)
    ensures ReadVerdict(MissingPrefix + rest) == Some(MissingRequirement)
  {
    StartsWithPrefix(MissingPrefix, rest);
    FirstLetterDiffers(MissingPrefix + rest, AddressedPrefix);
    FirstLetterDiffers(MissingPrefix + rest, PartlyPrefix);
  }

  /** The feedback sentence names the verdict the requirement deserves: the three sentences
      are told apart by their opening words. */
  lemma FeedbackNamesVerdict(req: string, met: bool, text: string)
    ensures ReadVerdict(Feedback(req, met, text)) == Some(VerdictOf(met, req, text))
  {
    IntersectionMeansSharedWord(req, text);
    if met {
      ReadsAddressed(req);
    } else if SharesWord(req, text) {
      ReadsPartly(req + ". Expand your discussion to fully meet this requirement.");
    } else {
      ReadsMissing(req + ". Add this to your assignment.");
    }
  }

  // ---------------------------------------------------------------------------------------
  // Aggregation (`analyze`).

  /** One entry of the feedback list. */
  datatype Entry = Entry(requirement: string, met: bool, pointsEarned: nat, pointsPossible: nat, feedback: string)

  datatype Analysis = Analysis(estimatedScore: real, feedback: seq<Entry>)

  /** Judges one requirement: all of its points or none. */
  function Judge(req: Requirement, text: string, sim: Grading.Similarity): (e: Entry)
    ensures e.requirement == req.text && e.pointsPossible == req.points
    ensures e.met <==> sim(req.text) > 0.7
    ensures e.pointsEarned == if e.met then req.points else 0
    ensures e.feedback == Feedback(req.text, e.met, text)
  {
    var met := IsMet(sim(req.text));
    Entry(req.text, met, if met then req.points else 0, req.points, Feedback(req.text, met, text))
  }

  function Entries(reqs: seq<Requirement>, text: string, sim: Grading.Similarity): (r: seq<Entry>)
    ensures |r| == |reqs| && forall i :: 0 <= i < |reqs| ==> r[i] == Judge(reqs[i], text, sim)
  {
    seq(|reqs|, i requires 0 <= i < |reqs| => Judge(reqs[i], text, sim))
  }

  function TotalScore(entries: seq<Entry>): nat {
    if |entries| == 0 then 0 else entries[0].pointsEarned + TotalScore(entries[1..])
  }

  function AvailablePoints(entries: seq<Entry>): nat {
    if |entries| == 0 then 0 else entries[0].pointsPossible + AvailablePoints(entries[1..])
  }

  /** All-or-nothing credit: the score never exceeds the points available, and reaches them
      exactly when every requirement with points is met. */
  lemma {:induction false} ScoreWithinAvailable(entries: seq<Entry>)
    requires forall i :: 0 <= i < |entries| ==>
               entries[i].pointsEarned == if entries[i].met then entries[i].pointsPossible else 0
    ensures TotalScore(entries) <= AvailablePoints(entries)
    ensures TotalScore(entries) == AvailablePoints(entries) <==>
              forall i :: 0 <= i < |entries| && entries[i].pointsPossible > 0 ==> entries[i].met
  {
    if |entries| > 0 {
      ScoreWithinAvailable(entries[1..]);
      assert forall i :: 1 <= i < |entries| ==> entries[1..][i - 1] == entries[i];
    }
  }

  /** The estimated score of judged entries: the percentage of the available points earned,
      0 when none are available. */
  function EstimatedScore(entries: seq<Entry>): (r: real)
    requires forall i :: 0 <= i < |entries| ==>
               entries[i].pointsEarned == if entries[i].met then entries[i].pointsPossible else 0
    ensures 0.0 <= r <= 100.0
    ensures AvailablePoints(entries) == 0 ==> r == 0.0
    ensures AvailablePoints(entries) > 0 ==>
              r * AvailablePoints(entries) as real == TotalScore(entries) as real * 100.0
  {
    ScoreWithinAvailable(entries);
    Grading.Percentage(TotalScore(entries) as real, AvailablePoints(entries))
  }

  /** `analyze`: the percentage of available points earned (0 when none are available), and
      one entry per requirement. The course materials are not consulted. */
  function Analyze(rubric: string, text: string, materials: string, sim: Grading.Similarity): (r: Analysis)
    ensures |r.feedback| == |ExtractRequirements(rubric)|
    ensures 0.0 <= r.estimatedScore <= 100.0
    ensures AvailablePoints(r.feedback) == 0 ==> r.estimatedScore == 0.0
    ensures r.feedback == Entries(ExtractRequirements(rubric), text, sim)
    ensures r.estimatedScore == EstimatedScore(r.feedback)
  {
    var entries := Entries(ExtractRequirements(rubric), text, sim);
    Analysis(EstimatedScore(entries), entries)
  }
}

=== FILE: fulfillment.dfy ===
/** Judging one criterion against the assignment (`_check_requirement_fulfillment` and
    `_generate_criterion_feedback` in grading_model.py). The similarity of the requirement to
    the assignment is an input. */
module Fulfillment {
  import opened Wrappers
  import opened Text
  import opened RubricParser
  import Seqs

  /** The three fulfillment levels ("Met", "Partially Met", "Not Met"). */
  datatype Level = Met | PartiallyMet | NotMet

  /** The one way judging a criterion fails: a criterion without keywords makes the keyword
      presence a division by zero. */
  datatype GradeError = DivisionByZero

  /** The level of a similarity value: strict thresholds at 0.85 and 0.65. */
  function LevelOf(sim: real): Level {
    if sim > 0.85 then Met else if sim > 0.65 then PartiallyMet else NotMet
  }

  /** Levels ordered from worst to best. */
  function LevelRank(l: Level): nat {
    match l
    case NotMet => 0
    case PartiallyMet => 1
    case Met => 2
  }

  /** The thresholds are strict on the lower side: each level is exactly a half-open interval
      of similarity values. */
  lemma LevelIntervals(sim: real)
    ensures LevelOf(sim) == Met <==> sim > 0.85
    ensures LevelOf(sim) == PartiallyMet <==> 0.65 < sim <= 0.85
    ensures LevelOf(sim) == NotMet <==> sim <= 0.65
  {
  }

  /** A higher similarity never gives a lower level. */
  lemma LevelMonotone(a: real, b: real)
    requires a <= b
    ensures LevelRank(LevelOf(a)) <= LevelRank(LevelOf(b))
  {
  }

  /** Keyword `k` occurs in the assignment, both compared lower-cased. */
  predicate Present(k: string, text: string) {
    Contains(LowerString(text), LowerString(k))
  }

  /** How many of the keywords (counting repetitions) occur in the assignment. */
  function Hits(keywords: seq<string>, text: string): (n: nat)
    ensures n <= |keywords|
  {
    if |keywords| == 0 then 0
    else (if Present(keywords[0], text) then 1 else 0) + Hits(keywords[1..], text)
  }

  /** The hits are the keywords found, counted with their repetitions. */
  lemma {:induction false} HitsAreFound(keywords: seq<string>, text: string)
    ensures Hits(keywords, text) == |Seqs.Filter((k: string) => Present(k, text), keywords)|
  {
    if |keywords| > 0 {
      HitsAreFound(keywords[1..], text);
    }
  }

  /** Every keyword is found exactly when all of them count as hits. */
  lemma {:induction false} HitsAll(keywords: seq<string>, text: string)
    ensures Hits(keywords, text) == |keywords| <==> forall k :: k in keywords ==> Present(k, text)
  {
    if |keywords| > 0 {
      HitsAll(keywords[1..], text);
      assert keywords == [keywords[0]] + keywords[1..];
    }
  }

  /** No keyword is found exactly when there is no hit. */
  lemma {:induction false} HitsNone(keywords: seq<string>, text: string)
    ensures Hits(keywords, text) == 0 <==> forall k :: k in keywords ==> !Present(k, text)
  {
    if |keywords| > 0 {
      HitsNone(keywords[1..], text);
      assert keywords == [keywords[0]] + keywords[1..];
    }
  }

  /** The keyword presence: the fraction of keywords found in the assignment; a division by
      zero when the criterion has no keywords. */
  function KeywordPresence(keywords: seq<string>, text: string): (r: Result<real, GradeError>)
    ensures r.Failure? <==> |keywords| == 0
    ensures r.Success? ==> r.value * |keywords| as real == Hits(keywords, text) as real
    ensures r.Success? ==> 0.0 <= r.value <= 1.0
    ensures r.Success? ==> (r.value == 1.0 <==> forall k :: k in keywords ==> Present(k, text))
    ensures r.Success? ==> (r.value == 0.0 <==> forall k :: k in keywords ==> !Present(k, text))
  {
    if |keywords| == 0 then Failure(DivisionByZero)
    else
      var h := Hits(keywords, text);
      var n := |keywords|;
      HitsAll(keywords, text);
      HitsNone(keywords, text);
      FractionFacts(h, n);
      Success(h as real / n as real)
  }

  /** Elementary facts about `h / n` for `h <= n`. */
  lemma FractionFacts(h: nat, n: nat)
    requires 0 < n && h <= n
    ensures (h as real / n as real) * n as real == h as real
    ensures 0.0 <= h as real / n as real <= 1.0
    ensures h as real / n as real == 1.0 <==> h == n
    ensures h as real / n as real == 0.0 <==> h == 0
  {
    var q := h as real / n as real;
    assert q * n as real == h as real;
  }

  /** The blended score: the mean of similarity and keyword presence, not clamped. */
  function FinalScore(sim: real, presence: real): (r: real)
    ensures (sim <= presence ==> sim <= r <= presence) && (presence <= sim ==> presence <= r <= sim)
    ensures r - sim == presence - r
  {
    (sim + presence) / 2.0
  }

  /** The category name the feedback message mentions. */
  function CategoryName(c: Category): string {
    match c
    case Analysis => "analysis"
    case Implementation => "implementation"
    case Understanding => "understanding"
    case Demonstration => "demonstration"
    case General => "general"
  }

  /** The outcome of judging one criterion. */
  datatype Evaluation = Evaluation(score: real, level: Level, feedback: string, suggestions: seq<string>)

  /** The feedback message and improvement suggestions for a level. */
  function CriterionFeedback(c: Criterion, level: Level): (string, seq<string>) {
    match level
    case Met =>
      ("Excellent demonstration of " + CategoryName(c.category) + " requirements.",
       ["Consider adding more examples to strengthen your argument."])
    case PartiallyMet =>
      ("Basic understanding shown, but needs more depth.",
       ["Expand your discussion of key concepts.",
        "Add more specific examples.",
        "Link your ideas more clearly to the requirements."])
    case NotMet =>
      ("Requirement not adequately addressed.",
       ["Review the requirement carefully.",
        "Include specific discussion of required topics.",
        "Add supporting evidence and examples."])
  }

  /** The message for a met criterion names its category; a met criterion gets a single
      suggestion, the other levels three. */
  lemma FeedbackByLevel(c: Criterion, level: Level)
    ensures level == Met ==> Contains(CriterionFeedback(c, level).0, CategoryName(c.category))
    ensures |CriterionFeedback(c, level).1| == if level == Met then 1 else 3
  {
    if level == Met {
      OccursInMiddle("Excellent demonstration of ", CategoryName(c.category), " requirements.");
    }
  }

  /** Judges one criterion given the similarity of its requirement to the assignment: the level
      comes from the similarity alone, the score blends similarity and keyword presence. */
  function CheckFulfillment(c: Criterion, text: string, sim: real): (r: Result<Evaluation, GradeError>)
    ensures r.Failure? <==> c.keywords == []
    ensures r.Success? ==> r.value.level == LevelOf(sim)
    ensures r.Success? ==> sim / 2.0 <= r.value.score <= (sim + 1.0) / 2.0
    ensures r.Success? ==> (r.value.score == (sim + 1.0) / 2.0 <==> forall k :: k in c.keywords ==> Present(k, text))
    ensures r.Success? ==> (r.value.score == sim / 2.0 <==> forall k :: k in c.keywords ==> !Present(k, text))
    ensures r.Success? && 0.0 <= sim <= 1.0 ==> 0.0 <= r.value.score <= 1.0
    ensures r.Success? ==> (KeywordPresence(c.keywords, text).Success? &&
                            r.value.score == FinalScore(sim, KeywordPresence(c.keywords, text).value))
    ensures r.Success? ==> (r.value.feedback, r.value.suggestions) == CriterionFeedback(c, LevelOf(sim))
  {
    match KeywordPresence(c.keywords, text)
    case Failure(e) => Failure(e)
    case Success(presence) =>
      var level := LevelOf(sim);
      var (feedback, suggestions) := CriterionFeedback(c, level);
      Success(Evaluation(FinalScore(sim, presence), level, feedback, suggestions))
  }

  /** The level and the score can disagree: with full similarity but no keyword in the
      assignment a criterion is Met yet earns only half its points, because the score ignores
      the level. */
  lemma LevelAndScoreDisagree(c: Criterion, text: string)
    requires c.keywords != [] && forall k :: k in c.keywords ==> !Present(k, text)
    ensures CheckFulfillment(c, text, 1.0).Success?
    ensures CheckFulfillment(c, text, 1.0).value.level == Met
    ensures CheckFulfillment(c, text, 1.0).value.score == 0.5
  {
  }
}

=== FILE: grading.dfy ===
/** Grading a whole assignment (`grade_assignment`, `_generate_overall_feedback` and
    `_generate_summary_text` in grading_model.py): every criterion is judged, the points are
    summed, and the results are split into strengths and areas for improvement. */
module Grading {
  import opened Wrappers
  import opened Text
  import Seqs
  import opened RubricParser
  import opened Fulfillment

  /** One entry of the detailed feedback; the points earned are rounded to a whole number. */
  datatype Row = Row(requirement: string, pointsPossible: nat, pointsEarned: int, level: Level,
                     feedback: string, suggestions: seq<string>)

  /** A row with the unrounded points it earned, which is what the total adds up. */
  datatype Graded = Graded(row: Row, earned: real)

  function RowOf(g: Graded): Row {
    g.row
  }

  /** The overall feedback: requirement texts by outcome, and a one-sentence summary. */
  datatype Overall = Overall(strengths: seq<string>, improvements: seq<string>, summary: string)

  /** The graded result; the score is a percentage of the total points. */
  datatype Report = Report(score: real, pointsEarned: real, totalPoints: nat, details: seq<Row>, overall: Overall)

  /** Python's `round(x)`: the nearest integer, ties to the even one. */
  function Round(x: real): (r: int)
    ensures x - 0.5 <= r as real <= x + 0.5
    ensures x - x.Floor as real == 0.5 ==> r % 2 == 0
  {
    var f := x.Floor;
    var d := x - f as real;
    if d < 0.5 then f
    else if d > 0.5 then f + 1
    else if f % 2 == 0 then f
    else f + 1
  }

  /** Rounding a value between 0 and a whole number `n` stays between them. */
  lemma RoundWithin(x: real, n: nat)
    ensures 0.0 <= x <= n as real ==> 0 <= Round(x) <= n
  {
  }

  /** Judges one criterion: it earns its points scaled by the blended score, and the row
      shows that rounded. */
  function GradeCriterion(c: Criterion, text: string, sim: real): (r: Result<Graded, GradeError>)
    ensures r.Failure? <==> c.keywords == []
    ensures r.Success? ==> r.value.row.requirement == c.requirement && r.value.row.pointsPossible == c.points
    ensures r.Success? ==> r.value.row.level == LevelOf(sim) && r.value.row.pointsEarned == Round(r.value.earned)
    ensures r.Success? && 0.0 <= sim <= 1.0 ==>
              0.0 <= r.value.earned <= c.points as real && 0 <= r.value.row.pointsEarned <= c.points
    ensures r.Success? ==> (CheckFulfillment(c, text, sim).Success? &&
                            r.value.earned == Scale(c.points, CheckFulfillment(c, text, sim).value.score))
    ensures r.Success? ==> (r.value.row.feedback, r.value.row.suggestions) == CriterionFeedback(c, LevelOf(sim))
  {
    match CheckFulfillment(c, text, sim)
    case Failure(e) => Failure(e)
    case Success(ev) =>
      var earned := Scale(c.points, ev.score);
      RoundWithin(earned, c.points);
      Success(Graded(Row(c.requirement, c.points, Round(earned), ev.level, ev.feedback, ev.suggestions), earned))
  }

  /** Points scaled by a score: the score is the fraction of the points earned, so a score in
      [0,1] earns between nothing and all the points. */
  function Scale(points: nat, score: real): (r: real)
    ensures 0.0 <= score <= 1.0 ==> 0.0 <= r <= points as real
    ensures score == 1.0 ==> r == points as real
    ensures score == 0.0 ==> r == 0.0
    ensures points > 0 ==> r / points as real == score
    ensures points == 0 ==> r == 0.0
  {
    var p := points as real;
    if 0.0 <= score <= 1.0 then
      assert p * score <= p * 1.0;
      assert 0.0 * score <= p * score;
      p * score
    else p * score
  }

  /** Similarity of a requirement text to the assignment, as given by the embedding model. */
  type Similarity = string -> real

  /** Some criterion has no keywords, so judging it divides by zero. */
  predicate SomeWithoutKeywords(criteria: seq<Criterion>) {
    exists i :: 0 <= i < |criteria| && criteria[i].keywords == []
  }

  /** All similarity values lie in [0,1]. Cosine similarities can be negative, so this is a
      hypothesis about `sim` that the bounds on earned points and scores depend on. */
  predicate SimilaritiesInRange(criteria: seq<Criterion>, sim: Similarity) {
    forall i :: 0 <= i < |criteria| ==> 0.0 <= sim(criteria[i].requirement) <= 1.0
  }

  /** Judges the criteria in order; the first one without keywords aborts the grading. */
  function GradeAll(criteria: seq<Criterion>, text: string, sim: Similarity): (r: Result<seq<Graded>, GradeError>)
    ensures r.Failure? <==> SomeWithoutKeywords(criteria)
    ensures r.Success? ==> |r.value| == |criteria|
    ensures r.Success? ==> forall i :: 0 <= i < |criteria| ==>
              r.value[i].row.requirement == criteria[i].requirement &&
              r.value[i].row.pointsPossible == criteria[i].points &&
              r.value[i].row.level == LevelOf(sim(criteria[i].requirement))
    ensures r.Success? ==> forall i :: 0 <= i < |criteria| ==>
              r.value[i] == GradeCriterion(criteria[i], text, sim(criteria[i].requirement)).value
  {
    var grade := (c: Criterion) => GradeCriterion(c, text, sim(c.requirement));
    assert forall i :: 0 <= i < |criteria| ==>
             grade(criteria[i]) == GradeCriterion(criteria[i], text, sim(criteria[i].requirement));
    Seqs.TryMap(grade, criteria)
  }

  /** A criterion whose similarity lies in [0,1] earns between nothing and its points, before
      and after rounding. */
  lemma GradeAllBounded(criteria: seq<Criterion>, text: string, sim: Similarity, i: nat)
    requires GradeAll(criteria, text, sim).Success? && i < |criteria|
    requires 0.0 <= sim(criteria[i].requirement) <= 1.0
    ensures 0.0 <= GradeAll(criteria, text, sim).value[i].earned <= criteria[i].points as real
    ensures 0 <= GradeAll(criteria, text, sim).value[i].row.pointsEarned <= criteria[i].points
  {
    assert GradeAll(criteria, text, sim).value[i] == GradeCriterion(criteria[i], text, sim(criteria[i].requirement)).value;
  }

  /** The sum of the criteria's points. */
  function TotalPoints(criteria: seq<Criterion>): nat {
    if |criteria| == 0 then 0 else criteria[0].points + TotalPoints(criteria[1..])
  }

  /** The sum of the points possible over the results. */
  function Possible(gs: seq<Graded>): nat {
    if |gs| == 0 then 0 else gs[0].row.pointsPossible + Possible(gs[1..])
  }

  /** The sum of the unrounded points earned over the results. */
  function Earned(gs: seq<Graded>): real {
    if |gs| == 0 then 0.0 else gs[0].earned + Earned(gs[1..])
  }

  /** The rows carry the criteria's points, so they sum to the same total. */
  lemma {:induction false} PossibleIsTotal(criteria: seq<Criterion>, gs: seq<Graded>)
    requires |gs| == |criteria|
    requires forall i :: 0 <= i < |gs| ==> gs[i].row.pointsPossible == criteria[i].points
    ensures Possible(gs) == TotalPoints(criteria)
  {
    if |gs| > 0 {
      PossibleIsTotal(criteria[1..], gs[1..]);
    }
  }

  /** When no row earns more than its points possible or less than nothing, neither does the
      sum. */
  lemma {:induction false} EarnedBounded(gs: seq<Graded>)
    requires forall i :: 0 <= i < |gs| ==> 0.0 <= gs[i].earned <= gs[i].row.pointsPossible as real
    ensures 0.0 <= Earned(gs) <= Possible(gs) as real
  {
    if |gs| > 0 {
      EarnedBounded(gs[1..]);
    }
  }

  /** With similarities in [0,1] the points earned never exceed the total. */
  lemma EarnedWithinTotal(criteria: seq<Criterion>, text: string, sim: Similarity)
    requires GradeAll(criteria, text, sim).Success?
    ensures Possible(GradeAll(criteria, text, sim).value) == TotalPoints(criteria)
    ensures SimilaritiesInRange(criteria, sim) ==>
              0.0 <= Earned(GradeAll(criteria, text, sim).value) <= TotalPoints(criteria) as real
  {
    var gs := GradeAll(criteria, text, sim).value;
    PossibleIsTotal(criteria, gs);
    if SimilaritiesInRange(criteria, sim) {
      forall i | 0 <= i < |gs|
        ensures 0.0 <= gs[i].earned <= gs[i].row.pointsPossible as real
      {
        GradeAllBounded(criteria, text, sim, i);
      }
      EarnedBounded(gs);
    }
  }

  /** The percentage score: 0 when there are no points to earn. */
  function Percentage(earned: real, total: nat): (r: real)
    ensures total == 0 ==> r == 0.0
    ensures 0.0 <= earned <= total as real ==> 0.0 <= r <= 100.0
    ensures total > 0 ==> r * total as real == earned * 100.0
  {
    if total == 0 then 0.0
    else
      var q := earned / total as real;
      assert q * total as real == earned;
      q * 100.0
  }

  // ---------------------------------------------------------------------------------------
  // Overall feedback.

  /** The requirement texts of the rows, in order. */
  function Requirements(rows: seq<Row>): (r: seq<string>)
    ensures |r| == |rows| && forall i :: 0 <= i < |rows| ==> r[i] == rows[i].requirement
  {
    seq(|rows|, i requires 0 <= i < |rows| => rows[i].requirement)
  }

  /** The requirement texts of the Met rows, in order. */
  function Strengths(rows: seq<Row>): seq<string> {
    if |rows| == 0 then []
    else (if rows[0].level == Met then [rows[0].requirement] else []) + Strengths(rows[1..])
  }

  /** The requirement texts of the other rows, in order. */
  function Improvements(rows: seq<Row>): seq<string> {
    if |rows| == 0 then []
    else (if rows[0].level != Met then [rows[0].requirement] else []) + Improvements(rows[1..])
  }

  /** How many rows have level `l`. */
  function CountLevel(rows: seq<Row>, l: Level): nat {
    if |rows| == 0 then 0 else (if rows[0].level == l then 1 else 0) + CountLevel(rows[1..], l)
  }

  lemma RequirementsCons(rows: seq<Row>)
    requires |rows| > 0
    ensures Requirements(rows) == [rows[0].requirement] + Requirements(rows[1..])
  {
  }

  predicate MetRow(r: Row) {
    r.level == Met
  }

  predicate UnmetRow(r: Row) {
    r.level != Met
  }

  /** Strengths and areas for improvement split the requirement texts between them: every
      text lands in exactly one of the two. */
  lemma {:induction false} OverallPartitions(rows: seq<Row>)
    ensures multiset(Strengths(rows)) + multiset(Improvements(rows)) == multiset(Requirements(rows))
    ensures |Strengths(rows)| == CountLevel(rows, Met)
  {
    if |rows| > 0 {
      OverallPartitions(rows[1..]);
      RequirementsCons(rows);
    }
  }

  /** Together the strengths and the areas for improvement number the rows. */
  lemma OverallCount(rows: seq<Row>)
    ensures |Strengths(rows)| + |Improvements(rows)| == |rows|
  {
    OverallPartitions(rows);
    assert |multiset(Requirements(rows))| == |rows|;
  }

  /** The strengths are the requirement texts of the Met rows, the areas for improvement
      those of all other rows, each in row order. */
  lemma {:induction false} StrengthsAreMetRows(rows: seq<Row>)
    ensures Strengths(rows) == Requirements(Seqs.Filter(MetRow, rows))
    ensures Improvements(rows) == Requirements(Seqs.Filter(UnmetRow, rows))
  {
    if |rows| > 0 {
      StrengthsAreMetRows(rows[1..]);
      var x := rows[0];
      if x.level == Met {
        KeptRow(x, Seqs.Filter(MetRow, rows[1..]));
      } else {
        KeptRow(x, Seqs.Filter(UnmetRow, rows[1..]));
      }
    }
  }

  /** The requirement texts of a row followed by others. */
  lemma KeptRow(x: Row, rest: seq<Row>)
    ensures Requirements([x] + rest) == [x.requirement] + Requirements(rest)
  {
    RequirementsCons([x] + rest);
    assert ([x] + rest)[1..] == rest;
  }

  /** The strengths keep the order of the results. */
  lemma {:induction false} StrengthsInOrder(rows: seq<Row>)
    ensures Seqs.IsSubsequence(Strengths(rows), Requirements(rows))
  {
    if |rows| > 0 {
      StrengthsInOrder(rows[1..]);
      RequirementsCons(rows);
      var x := rows[0].requirement;
      var rest := Strengths(rows[1..]);
      var req := Requirements(rows[1..]);
      if rows[0].level == Met {
        assert ([x] + rest)[1..] == rest;
        assert ([x] + req)[1..] == req;
      } else {
        assert Strengths(rows) == rest;
        Seqs.SubsequenceOfLonger(x, rest, req);
      }
    }
  }

  /** The areas for improvement keep the order of the results. */
  lemma {:induction false} ImprovementsInOrder(rows: seq<Row>)
    ensures Seqs.IsSubsequence(Improvements(rows), Requirements(rows))
  {
    if |rows| > 0 {
      ImprovementsInOrder(rows[1..]);
      RequirementsCons(rows);
      var x := rows[0].requirement;
      var rest := Improvements(rows[1..]);
      var req := Requirements(rows[1..]);
      if rows[0].level != Met {
        assert ([x] + rest)[1..] == rest;
        assert ([x] + req)[1..] == req;
      } else {
        assert Improvements(rows) == rest;
        Seqs.SubsequenceOfLonger(x, rest, req);
      }
    }
  }

  /** Every result is Met, Partially Met or Not Met, so the three counts add up. */
  lemma {:induction false} CountsAddUp(rows: seq<Row>)
    ensures CountLevel(rows, Met) + CountLevel(rows, PartiallyMet) + CountLevel(rows, NotMet) == |rows|
  {
    if |rows| > 0 {
      CountsAddUp(rows[1..]);
    }
  }

  /** The summary sentence. */
  function Summary(rows: seq<Row>): string {
    "Out of " + NatToString(|rows|) + " requirements, " + NatToString(CountLevel(rows, Met)) +
    " were fully met, " + NatToString(CountLevel(rows, PartiallyMet)) + " were partially met, and " +
    NatToString(CountLevel(rows, NotMet)) + " need improvement."
  }

  function OverallFeedback(rows: seq<Row>): Overall {
    Overall(Strengths(rows), Improvements(rows), Summary(rows))
  }

  /** `grade_assignment`: judge every criterion and aggregate. */
  function GradeAssignment(criteria: seq<Criterion>, text: string, sim: Similarity): (r: Result<Report, GradeError>)
    ensures r.Failure? <==> SomeWithoutKeywords(criteria)
    ensures r.Success? ==> r.value.totalPoints == TotalPoints(criteria) && |r.value.details| == |criteria|
    ensures r.Success? && TotalPoints(criteria) == 0 ==> r.value.score == 0.0
    ensures r.Success? && SimilaritiesInRange(criteria, sim) ==>
              0.0 <= r.value.pointsEarned <= TotalPoints(criteria) as real && 0.0 <= r.value.score <= 100.0
    ensures r.Success? ==> |r.value.overall.strengths| + |r.value.overall.improvements| == |criteria|
    ensures r.Success? ==> (GradeAll(criteria, text, sim).Success? &&
                            r.value.pointsEarned == Earned(GradeAll(criteria, text, sim).value))
    ensures r.Success? ==> r.value.score == Percentage(r.value.pointsEarned, r.value.totalPoints)
    ensures r.Success? ==> forall i :: 0 <= i < |criteria| ==>
              r.value.details[i] == GradeCriterion(criteria[i], text, sim(criteria[i].requirement)).value.row
    ensures r.Success? ==> r.value.overall == OverallFeedback(r.value.details)
  {
    match GradeAll(criteria, text, sim)
    case Failure(e) => Failure(e)
    case Success(gs) =>
      var rows := Seqs.Map(RowOf, gs);
      var total := TotalPoints(criteria);
      var earned := Earned(gs);
      EarnedWithinTotal(criteria, text, sim);
      OverallCount(rows);
      Success(Report(Percentage(earned, total), earned, total, rows, OverallFeedback(rows)))
  }

  /** `analyze_rubric_and_assignment`: parse the rubric, then grade against its criteria. */
  function AnalyzeRubricAndAssignment(rubric: string, text: string, sim: Similarity): (r: Result<Report, GradeError>)
    ensures r.Failure? <==> SomeWithoutKeywords(ExtractRubricCriteria(rubric))
    ensures r.Success? ==> |r.value.details| == |ExtractRubricCriteria(rubric)|
    ensures r.Success? ==> r.value.totalPoints == TotalPoints(ExtractRubricCriteria(rubric))
    ensures r.Success? ==> (GradeAll(ExtractRubricCriteria(rubric), text, sim).Success? &&
                            r.value.pointsEarned == Earned(GradeAll(ExtractRubricCriteria(rubric), text, sim).value))
    ensures r.Success? ==> r.value.score == Percentage(r.value.pointsEarned, r.value.totalPoints)
    ensures r.Success? ==> forall i :: 0 <= i < |ExtractRubricCriteria(rubric)| ==>
              r.value.details[i] == GradeCriterion(ExtractRubricCriteria(rubric)[i], text,
                                                   sim(ExtractRubricCriteria(rubric)[i].requirement)).value.row
    ensures r.Success? ==> r.value.overall == OverallFeedback(r.value.details)
  {
    GradeAssignment(ExtractRubricCriteria(rubric), text, sim)
  }
}

=== FILE: llm_feedback.dfy ===
/** Post-processing of the language model's analysis (the second `AIGrader` in
    grading_model_2.py): the analysis text is cut into lines, tagged lines become feedback
    items and improvement actions, and every item's deduction comes off a score of 100. The
    analysis is any string: the model that writes it is not part of this module. */
module LlmFeedback {
  import opened Wrappers
  import opened Text
  import Seqs

  // ---------------------------------------------------------------------------------------
  // Deductions (`_extract_points_impact`).

  const NoDeduction: string := "No points deducted"

  /** The missing text names nothing: it is empty or reads "none" in any case. */
  predicate NothingMissing(missing: string) {
    missing == [] || LowerString(missing) == "none"
  }

  /** The deduction for a gap: two points per word of the missing text, at most 10. */
  function Deduction(missing: string): (d: nat)
    ensures d <= 10
    ensures d == 10 || d == 2 * |Words(missing)|
    ensures d <= 2 * |Words(missing)|
  {
    if 2 * |Words(missing)| < 10 then 2 * |Words(missing)| else 10
  }

  /** The points-impact text of an item. */
  function PointsImpact(missing: string): string {
    if NothingMissing(missing) then NoDeduction
    else "-" + NatToString(Deduction(missing)) + " points for this gap"
  }

  // ---------------------------------------------------------------------------------------
  // Reading a deduction back (`re.search(r'-(\d+)', ...)` in `_calculate_score`).

  /** The number of a `-(\d+)` match starting at `i`, if one starts there. */
  function DashNumberAt(s: string, i: nat): Option<nat> {
    if i + 1 < |s| && s[i] == '-' && IsDigit(s[i + 1]) then
      var e := RunEnd(s, i + 1, IsDigit);
      Some(DigitsValue(s[i + 1..e]))
    else None
  }

  /** `re.search` for `-(\d+)` from `from`: the leftmost match. */
  function FirstDashNumber(s: string, from: nat): (r: Option<nat>)
    ensures r.None? <==> forall j :: from <= j <= |s| ==> DashNumberAt(s, j).None?
    ensures forall j :: from <= j <= |s| && DashNumberAt(s, j).Some? &&
                        (forall k :: from <= k < j ==> DashNumberAt(s, k).None?) ==>
                        r == DashNumberAt(s, j)
    decreases |s| + 1 - from
  {
    if from > |s| then None
    else if DashNumberAt(s, from).Some? then DashNumberAt(s, from)
    else FirstDashNumber(s, from + 1)
  }

  /** A maximal digit run: if `s[i..j]` is all digits and `s[j]` is not, the run from `i` ends at `j`. */
  lemma RunEndAt(s: string, i: nat, j: nat)
    requires i <= j < |s| && AllDigits(s[i..j]) && !IsDigit(s[j])
    ensures RunEnd(s, i, IsDigit) == j
  {
  }

  /** A text without a `-` holds no `-(\d+)` match. */
  lemma NoDashNoNumber(s: string)
    requires '-' !in s
    ensures FirstDashNumber(s, 0).None?
  {
    forall j | 0 <= j <= |s|
      ensures DashNumberAt(s, j).None?
    {
      if j + 1 < |s| {
        assert s[j] in s;
      }
    }
  }

  /** Reading the points impact back gives the deduction: the score calculation recovers
      exactly the number `_extract_points_impact` wrote, and nothing for no deduction. */
  lemma {:induction false} ImpactRoundTrip(missing: string)
    ensures FirstDashNumber(PointsImpact(missing), 0) ==
              if NothingMissing(missing) then None else Some(Deduction(missing))
  {
    if NothingMissing(missing) {
      assert '-' !in NoDeduction;
      NoDashNoNumber(NoDeduction);
    } else {
      var ds := NatToString(Deduction(missing));
      var s := PointsImpact(missing);
      assert s == "-" + ds + " points for this gap";
      assert s[0] == '-' && s[1] == ds[0];
      assert s[1..1 + |ds|] == ds;
      assert s[1 + |ds|] == ' ';
      RunEndAt(s, 1, 1 + |ds|);
      DigitsRoundTrip(Deduction(missing));
      assert DashNumberAt(s, 0) == Some(Deduction(missing));
    }
  }

  // ---------------------------------------------------------------------------------------
  // Items (`_parse_feedback`).

  const RequiredTag: string := "Required:"
  const ProvidedTag: string := "Provided:"
  const MissingTag: string := "Missing:"
  const ImproveTag: string := "Improve:"

  /** One structured feedback item. */
  datatype Item = Item(requirement: string, provided: string, missing: string, improvement: string, pointsImpact: string)

  /** The text of a tagged line: the line with every occurrence of the tag removed, stripped. */
  function TagText(line: string, tag: string): string
    requires |tag| > 0
  {
    Strip(RemoveAll(line, tag))
  }

  /** The text of the first line carrying `tag`, or "" when no line does. */
  function FirstTagged(lines: seq<string>, tag: string): string
    requires |tag| > 0
  {
    if |lines| == 0 then ""
    else if Contains(lines[0], tag) then TagText(lines[0], tag)
    else FirstTagged(lines[1..], tag)
  }

  /** A line that yields an item: it is not a requirement line and mentions "Provided:". */
  predicate IsProvidedLine(line: string) {
    !Contains(line, RequiredTag) && Contains(line, ProvidedTag)
  }

  /** The loop of `_parse_feedback` from line `from` on, with the current requirement text. */
  function ParseFrom(lines: seq<string>, from: nat, current: string, missing: string, improvement: string): (r: seq<Item>)
    requires from <= |lines|
    ensures forall i :: 0 <= i < |r| ==>
              r[i].missing == missing && r[i].improvement == improvement && r[i].pointsImpact == PointsImpact(missing)
    decreases |lines| - from
  {
    if from == |lines| then []
    else
      var line := lines[from];
      if Contains(line, RequiredTag) then
        ParseFrom(lines, from + 1, TagText(line, RequiredTag), missing, improvement)
      else if Contains(line, ProvidedTag) then
        [Item(current, TagText(line, ProvidedTag), missing, improvement, PointsImpact(missing))] +
        ParseFrom(lines, from + 1, current, missing, improvement)
      else ParseFrom(lines, from + 1, current, missing, improvement)
  }

  /** `_parse_feedback`: every item shares the texts of the first "Missing:" and the first
      "Improve:" line of the whole analysis. */
  function ParseFeedback(analysis: string): (r: seq<Item>)
    ensures forall i :: 0 <= i < |r| ==>
              r[i].missing == FirstTagged(Split(analysis, "\n"), MissingTag) &&
              r[i].improvement == FirstTagged(Split(analysis, "\n"), ImproveTag) &&
              r[i].pointsImpact == PointsImpact(r[i].missing)
  {
    var lines := Split(analysis, "\n");
    ParseFrom(lines, 0, "", FirstTagged(lines, MissingTag), FirstTagged(lines, ImproveTag))
  }

  /** The requirement in force at line `j`: the text of the last "Required:" line before it,
      or "" when there is none. */
  function RequirementBefore(lines: seq<string>, j: nat): string
    requires j <= |lines|
  {
    if j == 0 then ""
    else if Contains(lines[j - 1], RequiredTag) then TagText(lines[j - 1], RequiredTag)
    else RequirementBefore(lines, j - 1)
  }

  /** The items as a reference definition: one per item line, in line order, naming the
      requirement in force at that line. */
  function ItemsFrom(lines: seq<string>, from: nat, missing: string, improvement: string): seq<Item>
    requires from <= |lines|
    decreases |lines| - from
  {
    if from == |lines| then []
    else
      (if IsProvidedLine(lines[from])
       then [Item(RequirementBefore(lines, from), TagText(lines[from], ProvidedTag), missing, improvement, PointsImpact(missing))]
       else []) +
      ItemsFrom(lines, from + 1, missing, improvement)
  }

  /** The parsing loop, which carries the current requirement forward, agrees with the
      reference definition, which looks back for it. */
  lemma {:induction false} ParseFromIsItemsFrom(lines: seq<string>, from: nat, current: string, missing: string, improvement: string)
    requires from <= |lines| && current == RequirementBefore(lines, from)
    ensures ParseFrom(lines, from, current, missing, improvement) == ItemsFrom(lines, from, missing, improvement)
    decreases |lines| - from
  {
    if from < |lines| {
      var line := lines[from];
      var next := if Contains(line, RequiredTag) then TagText(line, RequiredTag) else current;
      assert next == RequirementBefore(lines, from + 1);
      ParseFromIsItemsFrom(lines, from + 1, next, missing, improvement);
    }
  }

  /** How many lines from `from` on yield an item. */
  function CountProvided(lines: seq<string>, from: nat): nat
    requires from <= |lines|
    decreases |lines| - from
  {
    if from == |lines| then 0 else (if IsProvidedLine(lines[from]) then 1 else 0) + CountProvided(lines, from + 1)
  }

  /** One item per line that mentions "Provided:" but not "Required:". */
  lemma {:induction false} ItemsCount(lines: seq<string>, from: nat, missing: string, improvement: string)
    requires from <= |lines|
    ensures |ItemsFrom(lines, from, missing, improvement)| == CountProvided(lines, from)
    decreases |lines| - from
  {
    if from < |lines| {
      ItemsCount(lines, from + 1, missing, improvement);
    }
  }

  /** `_parse_feedback` emits one item per item line, naming the requirement in force there. */
  lemma ParseFeedbackItems(analysis: string)
    ensures ParseFeedback(analysis) ==
              ItemsFrom(Split(analysis, "\n"), 0, FirstTagged(Split(analysis, "\n"), MissingTag),
                        FirstTagged(Split(analysis, "\n"), ImproveTag))
    ensures |ParseFeedback(analysis)| == CountProvided(Split(analysis, "\n"), 0)
  {
    var lines := Split(analysis, "\n");
    var m := FirstTagged(lines, MissingTag);
    var imp := FirstTagged(lines, ImproveTag);
    ParseFromIsItemsFrom(lines, 0, "", m, imp);
    ItemsCount(lines, 0, m, imp);
  }

  // ---------------------------------------------------------------------------------------
  // The score (`_calculate_score`).

  /** The deduction a points-impact text names (its first `-N`), or 0. */
  function ImpactValue(impact: string): nat {
    match FirstDashNumber(impact, 0)
    case Some(n) => n
    case None => 0
  }

  /** The deduction read back from a points impact is the one that was written. */
  lemma ImpactValueOf(missing: string)
    ensures ImpactValue(PointsImpact(missing)) == if NothingMissing(missing) then 0 else Deduction(missing)
  {
    ImpactRoundTrip(missing);
  }

  /** The sum of the deductions of all items. */
  function Deducted(items: seq<Item>): nat {
    if |items| == 0 then 0 else ImpactValue(items[0].pointsImpact) + Deducted(items[1..])
  }

  /** `_calculate_score`: 100 minus all deductions, never below 0. */
  function CalculateScore(items: seq<Item>): (r: nat)
    ensures r <= 100
    ensures r == 0 <==> Deducted(items) >= 100
    ensures r > 0 ==> r + Deducted(items) == 100
  {
    if Deducted(items) >= 100 then 0 else 100 - Deducted(items)
  }

  /** Items that all share one points impact deduct it once each. */
  lemma {:induction false} UniformDeductions(items: seq<Item>, impact: string)
    requires forall i :: 0 <= i < |items| ==> items[i].pointsImpact == impact
    ensures Deducted(items) == |items| * ImpactValue(impact)
  {
    if |items| > 0 {
      var v := ImpactValue(impact);
      assert forall i :: 0 <= i < |items[1..]| ==> items[1..][i] == items[i + 1];
      UniformDeductions(items[1..], impact);
      assert |items| * v == v + (|items| - 1) * v;
    }
  }

  /** The score of `n` items that all carry the gap `missing`: 100 minus `n` times its
      deduction, floored at 0; 100 when nothing is missing. */
  function UniformScore(n: nat, missing: string): nat {
    if NothingMissing(missing) then 100
    else if n * Deduction(missing) >= 100 then 0
    else 100 - n * Deduction(missing)
  }

  /** Items that all carry the points impact of one missing text score as `UniformScore`
      says. */
  lemma ScoreOfUniform(items: seq<Item>, missing: string)
    requires forall i :: 0 <= i < |items| ==> items[i].pointsImpact == PointsImpact(missing)
    ensures CalculateScore(items) == UniformScore(|items|, missing)
  {
    ImpactValueOf(missing);
    UniformDeductions(items, PointsImpact(missing));
    if NothingMissing(missing) {
      assert |items| * 0 == 0;
    }
  }

  /** The score of a parsed analysis: every item carries the gap of the first "Missing:" line,
      so the score is 100 minus the item count times that gap's deduction, floored at 0. */
  lemma ScoreOfAnalysis(analysis: string)
    ensures CalculateScore(ParseFeedback(analysis)) ==
              UniformScore(|ParseFeedback(analysis)|, FirstTagged(Split(analysis, "\n"), MissingTag))
  {
    ScoreOfUniform(ParseFeedback(analysis), FirstTagged(Split(analysis, "\n"), MissingTag));
  }

  // ---------------------------------------------------------------------------------------
  // Improvement actions (`_extract_improvement_actions`).

  const ToImproveMarker: string := "To improve:"
  const ActionNeededMarker: string := "Action needed:"
  const GainPrefix: string := "Complete this to gain "

  predicate IsActionLine(line: string) {
    Contains(line, ToImproveMarker) || Contains(line, ActionNeededMarker)
  }

  /** The text after the first colon (`line.split(':', 1)[1]`); empty when there is no colon,
      where Python would fail, which never happens for an action line. */
  function AfterFirstColon(line: string): (r: string)
    ensures |r| <= |line|
  {
    match Find(line, ":", 0)
    case Some(c) => line[c + 1..]
    case None => []
  }

  /** An action line always has a colon: each marker ends in one. */
  lemma ActionLineHasColon(line: string)
    requires IsActionLine(line)
    ensures Find(line, ":", 0).Some?
  {
    var marker := if Contains(line, ToImproveMarker) then ToImproveMarker else ActionNeededMarker;
    var k := Find(line, marker, 0).value;
    assert line[k + |marker| - 1..k + |marker|] == marker[|marker| - 1..];
    assert OccursAt(line, ":", k + |marker| - 1);
  }

  /** The text after the first colon is what Python's `split(':', 1)` puts second. */
  lemma AfterFirstColonIsSecondPiece(line: string)
    requires Find(line, ":", 0).Some?
    ensures |Split(line, ":")| >= 2
    ensures AfterFirstColon(line) == Join(Split(line, ":")[1..], ":")
  {
    var c := Find(line, ":", 0).value;
    SplitJoin(line[c + 1..], ":");
    assert Split(line, ":")[1..] == Split(line[c + 1..], ":");
  }

  /** The digits of an `add (\d+) points` match starting at `i` of the lower-cased action. */
  function AddPointsAt(s: string, i: nat): Option<string> {
    if i + 4 < |s| && s[i..i + 4] == "add " && IsDigit(s[i + 4]) then
      var e := RunEnd(s, i + 4, IsDigit);
      if e + 7 <= |s| && s[e..e + 7] == " points" then Some(s[i + 4..e]) else None
    else None
  }

  /** `re.search` for `add (\d+) points`: the leftmost match from `from`. */
  function FirstAddPoints(s: string, from: nat): (r: Option<string>)
    ensures r.Some? ==> |r.value| > 0 && AllDigits(r.value)
    ensures r.None? <==> forall j :: from <= j <= |s| ==> AddPointsAt(s, j).None?
    ensures forall j :: from <= j <= |s| && AddPointsAt(s, j).Some? &&
                        (forall k :: from <= k < j ==> AddPointsAt(s, k).None?) ==>
                        r == AddPointsAt(s, j)
    decreases |s| + 1 - from
  {
    if from > |s| then None
    else if AddPointsAt(s, from).Some? then AddPointsAt(s, from)
    else FirstAddPoints(s, from + 1)
  }

  /** The action of one action line: its text after the first colon, stripped, announced with
      the points to gain when it says "add N points" (in any case). */
  function Action(line: string): string {
    var action := Strip(AfterFirstColon(line));
    match FirstAddPoints(LowerString(action), 0)
    case Some(points) => GainPrefix + points + " points: " + action
    case None => action
  }

  /** An action ends with the text after the colon; it opens with the points to gain exactly
      when that text says "add N points", naming the first such N. */
  lemma ActionShape(line: string)
    ensures EndsWith(Action(line), Strip(AfterFirstColon(line)))
    ensures FirstAddPoints(LowerString(Strip(AfterFirstColon(line))), 0).None? ==>
              Action(line) == Strip(AfterFirstColon(line))
    ensures FirstAddPoints(LowerString(Strip(AfterFirstColon(line))), 0).Some? ==>
              StartsWith(Action(line), GainPrefix + FirstAddPoints(LowerString(Strip(AfterFirstColon(line))), 0).value + " points: ")
    ensures FirstAddPoints(LowerString(Strip(AfterFirstColon(line))), 0).Some? ==>
              |Action(line)| == |GainPrefix + FirstAddPoints(LowerString(Strip(AfterFirstColon(line))), 0).value + " points: "| +
                                |Strip(AfterFirstColon(line))|
  {
    var action := Strip(AfterFirstColon(line));
    match FirstAddPoints(LowerString(action), 0)
    case Some(points) =>
      var head := GainPrefix + points + " points: ";
      assert Action(line) == head + action;
      assert (head + action)[..|head|] == head;
      assert (head + action)[|head + action| - |action|..] == action;
    case None =>
      assert action[|action| - |action|..] == action;
  }

  /** `_extract_improvement_actions`: one action per action line, in line order. */
  function ImprovementActions(analysis: string): seq<string> {
    Seqs.FilterMap(IsActionLine, Action, Split(analysis, "\n"))
  }

  /** Every action line yields one action, in order, and every other line none. */
  lemma ImprovementActionsFromLines(analysis: string)
    ensures ImprovementActions(analysis) == Seqs.Map(Action, Seqs.Filter(IsActionLine, Split(analysis, "\n")))
    ensures Seqs.IsSubsequence(Seqs.Filter(IsActionLine, Split(analysis, "\n")), Split(analysis, "\n"))
  {
    Seqs.FilterMapIsMapOfFilter(IsActionLine, Action, Split(analysis, "\n"));
    Seqs.FilterIsSubsequence(IsActionLine, Split(analysis, "\n"));
  }
}

=== FILE: patterns.dfy ===
/** Dedicated scanners for the fixed regular expressions of StuGrader, each matched
    case-insensitively (`re.IGNORECASE`, ASCII letters only) with Python's `re` semantics:
    `.` never matches a line feed, `$` matches at the end of the text or just before a final
    line feed, `re.search` finds the leftmost match and `re.finditer` the successive
    non-overlapping ones. */
module Patterns {
  import opened Wrappers
  import opened Text

  /** The literal `lit` (written in lower case) occurs at `i`, ignoring ASCII case. */
  predicate MatchesAt(s: string, i: nat, lit: string) {
    i + |lit| <= |s| && LowerString(s[i..i + |lit|]) == lit
  }

  // ---------------------------------------------------------------------------------------
  // Point values: `(\d+)\s*unit` and `label\s*(\d+)`.

  /** A point-value pattern.  `CountThen("point")` is `(\d+)\s*points?` (the optional plural
      `s` never changes whether or where a match starts, nor the captured number);
      `LabelThen("worth")` is `worth\s*(\d+)`. */
  datatype PointPattern =
    | CountThen(unit: string)
    | LabelThen(prefix: string)

  /** The number captured by a match of `p` that starts at `i`, if one starts there.
      Whitespace and digits are disjoint from each other and from the literal's first letter,
      so the greedy `\d+` and `\s*` never need to give characters back: a match exists exactly
      when the maximal runs are followed by the required text. */
  function PointMatchAt(p: PointPattern, s: string, i: nat): Option<nat> {
    if i >= |s| then None
    else
      match p
      case CountThen(unit) =>
        if IsDigit(s[i]) then
          var e := RunEnd(s, i, IsDigit);
          var k := RunEnd(s, e, IsSpace);
          if MatchesAt(s, k, unit) then Some(DigitsValue(s[i..e])) else None
        else None
      case LabelThen(prefix) =>
        if MatchesAt(s, i, prefix) then
          var k := RunEnd(s, i + |prefix|, IsSpace);
          if k < |s| && IsDigit(s[k]) then Some(DigitsValue(s[k..RunEnd(s, k, IsDigit)])) else None
        else None
  }

  /** `re.search` for a point pattern: the leftmost start position at or after `from`. */
  function FirstPointMatch(p: PointPattern, s: string, from: nat): (r: Option<nat>)
    ensures r.Some? ==> from <= r.value <= |s| && PointMatchAt(p, s, r.value).Some?
    ensures r.Some? ==> forall j :: from <= j < r.value ==> PointMatchAt(p, s, j).None?
    ensures r.None? ==> forall j :: from <= j <= |s| ==> PointMatchAt(p, s, j).None?
    decreases |s| + 1 - from
  {
    if from > |s| then None
    else if PointMatchAt(p, s, from).Some? then Some(from)
    else FirstPointMatch(p, s, from + 1)
  }

  /** `int(re.search(p, s).group(1))`, or `None` when the pattern does not occur: the value of
      the leftmost match. */
  function PointValue(p: PointPattern, s: string): (r: Option<nat>)
    ensures r.None? <==> forall i :: 0 <= i <= |s| ==> PointMatchAt(p, s, i).None?
    ensures forall i :: 0 <= i <= |s| && PointMatchAt(p, s, i).Some? &&
                        (forall j :: 0 <= j < i ==> PointMatchAt(p, s, j).None?) ==>
                        r == PointMatchAt(p, s, i)
  {
    match FirstPointMatch(p, s, 0)
    case None => None
    case Some(m) =>
      assert forall i :: (0 <= i <= |s| && PointMatchAt(p, s, i).Some? &&
                          (forall j :: 0 <= j < i ==> PointMatchAt(p, s, j).None?)) ==> i == m;
      PointMatchAt(p, s, m)
  }

  // ---------------------------------------------------------------------------------------
  // Requirement clauses: `cue\s+(.*?)[.]` and `cue\s+(.*?)(?=\.|$)`.

  /** The literal head of a requirement pattern.  `Word(w)` is the text `w` (which may contain a
      literal space, as in `required to`); `NeedTo(false)` is `needs? to` and `NeedTo(true)` is
      `needs?\s+to`. */
  datatype Cue = Word(word: string) | NeedTo(spaced: bool)

  /** How the lazily matched clause ends: `[.]` consumes a full stop; `(?=\.|$)` only looks
      ahead for a full stop or the end of the text. */
  datatype Stop = Period | PeriodOrEnd

  /** One match: where it starts and ends in the text, and the captured group 1. */
  datatype Match = Match(start: nat, end: nat, group: string)

  /** Where the cue matched at `i` ends, if it matches there.  The optional `s` and the inner
      `\s+` are deterministic for the same reason as in `PointMatchAt`. */
  function CueEnd(c: Cue, s: string, i: nat): (r: Option<nat>)
    ensures r.Some? ==> i <= r.value <= |s|
  {
    match c
    case Word(w) => if MatchesAt(s, i, w) then Some(i + |w|) else None
    case NeedTo(spaced) =>
      if !spaced then
        if MatchesAt(s, i, "needs to") then Some(i + 8)
        else if MatchesAt(s, i, "need to") then Some(i + 7)
        else None
      else if MatchesAt(s, i, "need") then
        var j := if i + 4 < |s| && Lower(s[i + 4]) == 's' then i + 5 else i + 4;
        if j < |s| && IsSpace(s[j]) then
          var k := RunEnd(s, j, IsSpace);
          if MatchesAt(s, k, "to") then Some(k + 2) else None
        else None
      else None
  }

  /** The stop condition holds at index `k`. */
  predicate StopsAt(stop: Stop, s: string, k: nat) {
    match stop
    case Period => k < |s| && s[k] == '.'
    case PeriodOrEnd => k == |s| || (k < |s| && s[k] == '.') || (k + 1 == |s| && s[k] == '\n')
  }

  /** No line feed in `s[lo..hi]`: the lazy `.*?` may cover that stretch. */
  predicate NoNewline(s: string, lo: nat, hi: nat)
    requires lo <= hi <= |s|
  {
    forall n :: lo <= n < hi ==> s[n] != '\n'
  }

  /** The lazy `(.*?)` followed by the stop: the first index at or after `b` where the stop holds,
      provided no line feed comes first. */
  function StopFrom(stop: Stop, s: string, b: nat): (r: Option<nat>)
    requires b <= |s|
    ensures r.Some? ==> b <= r.value <= |s| && StopsAt(stop, s, r.value) && NoNewline(s, b, r.value)
    ensures r.Some? ==> forall k :: b <= k < r.value ==> !StopsAt(stop, s, k)
    ensures r.None? ==> forall k :: b <= k <= |s| && StopsAt(stop, s, k) ==> !NoNewline(s, b, k)
    decreases |s| - b
  {
    if StopsAt(stop, s, b) then Some(b)
    else if b == |s| || s[b] == '\n' then None
    else StopFrom(stop, s, b + 1)
  }

  /** The match of `cue\s+(.*?)<stop>` that starts at `i`, if any.  The greedy `\s+` takes the
      whole whitespace run: handing whitespace back to `.*?` only adds characters that are
      neither a full stop nor (before the last character) an end of text, so it never turns a
      failure into a match. */
  function ClauseAt(c: Cue, stop: Stop, s: string, i: nat): (r: Option<Match>)
    ensures r.Some? ==> r.value.start == i < r.value.end <= |s|
  {
    match CueEnd(c, s, i)
    case None => None
    case Some(a) =>
      if a < |s| && IsSpace(s[a]) then
        var b := RunEnd(s, a, IsSpace);
        match StopFrom(stop, s, b)
        case None => None
        case Some(k) => Some(Match(i, if stop.Period? then k + 1 else k, s[b..k]))
      else None
  }

  /** `at` describes a pattern's matches: the match starting at `p`, if any, starts at `p`,
      is not empty and ends within the text of length `limit`. */
  ghost predicate Matcher(at: nat -> Option<Match>, limit: nat) {
    forall p: nat :: at(p).Some? ==> at(p).value.start == p < at(p).value.end <= limit
  }

  /** `re.search` from position `from`: the leftmost match starting there or later. */
  function FirstFrom(at: nat -> Option<Match>, limit: nat, from: nat): (r: Option<Match>)
    requires Matcher(at, limit)
    ensures r.Some? ==> from <= r.value.start <= limit && at(r.value.start) == r
    ensures r.Some? ==> forall p :: from <= p < r.value.start ==> at(p).None?
    ensures r.None? ==> forall p :: from <= p <= limit ==> at(p).None?
    decreases limit + 1 - from
  {
    if from > limit then None
    else
      match at(from)
      case Some(m) => Some(m)
      case None => FirstFrom(at, limit, from + 1)
  }

  /** `re.finditer` from position `from`: each match is the leftmost one starting at or after
      the end of the previous one, so the matches are genuine, in order and disjoint. */
  function FindAllBy(at: nat -> Option<Match>, limit: nat, from: nat): (r: seq<Match>)
    requires Matcher(at, limit)
    ensures forall i :: 0 <= i < |r| ==> from <= r[i].start && at(r[i].start) == Some(r[i])
    ensures forall i, j :: 0 <= i < j < |r| ==> r[i].end <= r[j].start
    decreases limit + 1 - from
  {
    match FirstFrom(at, limit, from)
    case None => []
    case Some(m) =>
      var rest := FindAllBy(at, limit, m.end);
      var r := [m] + rest;
      assert forall i :: 0 < i < |r| ==> r[i] == rest[i - 1];
      r
  }

  /** `finditer` skips no match: every position where the pattern matches lies inside one of
      the reported matches (it is the start of one, or an earlier reported match overlaps it). */
  lemma {:induction false} FindAllByMissesNothing(at: nat -> Option<Match>, limit: nat, from: nat, p: nat)
    returns (i: nat)
    requires Matcher(at, limit)
    requires from <= p && at(p).Some?
    ensures i < |FindAllBy(at, limit, from)|
    ensures FindAllBy(at, limit, from)[i].start <= p < FindAllBy(at, limit, from)[i].end
    decreases limit + 1 - from
  {
    var m := FirstFrom(at, limit, from).value;
    if p < m.end {
      i := 0;
      assert FindAllBy(at, limit, from)[0] == m;
    } else {
      var i' := FindAllByMissesNothing(at, limit, m.end, p);
      i := i' + 1;
      assert FindAllBy(at, limit, from)[i] == FindAllBy(at, limit, m.end)[i'];
    }
  }

  lemma ClauseMatcher(c: Cue, stop: Stop, s: string)
    ensures Matcher((p: nat) => ClauseAt(c, stop, s, p), |s|)
  {
  }

  /** `re.finditer` of a requirement pattern over the text `s`, from position `from`. */
  function FindAll(c: Cue, stop: Stop, s: string, from: nat): (r: seq<Match>)
    ensures forall i :: 0 <= i < |r| ==> from <= r[i].start && ClauseAt(c, stop, s, r[i].start) == Some(r[i])
    ensures forall i, j :: 0 <= i < j < |r| ==> r[i].end <= r[j].start
  {
    ClauseMatcher(c, stop, s);
    FindAllBy((p: nat) => ClauseAt(c, stop, s, p), |s|, from)
  }

  /** Every position where a requirement pattern matches is covered by a `finditer` match. */
  lemma FindAllMissesNothing(c: Cue, stop: Stop, s: string, from: nat, p: nat) returns (i: nat)
    requires from <= p && ClauseAt(c, stop, s, p).Some?
    ensures i < |FindAll(c, stop, s, from)|
    ensures FindAll(c, stop, s, from)[i].start <= p < FindAll(c, stop, s, from)[i].end
  {
    ClauseMatcher(c, stop, s);
    i := FindAllByMissesNothing((p: nat) => ClauseAt(c, stop, s, p), |s|, from, p);
  }

  /** A requirement found in a section: the index of the pattern in its table, and the match. */
  datatype Hit = Hit(cue: nat, m: Match)

  /** Hits are ordered by pattern index, then by position in the text. */
  predicate Before(a: Hit, b: Hit) {
    a.cue < b.cue || (a.cue == b.cue && a.m.end <= b.m.start)
  }

  /** The matches of pattern `k` whose captured text is not blank, tagged with `k`, in order. */
  function Keep(k: nat, ms: seq<Match>): (r: seq<Hit>)
    ensures forall i :: 0 <= i < |r| ==> r[i].cue == k && r[i].m in ms && !AllSpace(r[i].m.group)
  {
    if |ms| == 0 then []
    else
      var rest := Keep(k, ms[1..]);
      if !AllSpace(ms[0].group) then [Hit(k, ms[0])] + rest else rest
  }

  /** Nothing that is not blank is dropped. */
  lemma {:induction false} KeepComplete(k: nat, ms: seq<Match>, i: nat)
    requires i < |ms| && !AllSpace(ms[i].group)
    ensures Hit(k, ms[i]) in Keep(k, ms)
  {
    if i > 0 {
      KeepComplete(k, ms[1..], i - 1);
    }
  }

  /** Keeping preserves the order of disjoint, increasing matches. */
  lemma {:induction false} KeepOrdered(k: nat, ms: seq<Match>)
    requires forall i, j :: 0 <= i < j < |ms| ==> ms[i].end <= ms[j].start
    ensures forall i, j :: 0 <= i < j < |Keep(k, ms)| ==> Before(Keep(k, ms)[i], Keep(k, ms)[j])
  {
    if |ms| > 0 {
      var rest := Keep(k, ms[1..]);
      KeepOrdered(k, ms[1..]);
      forall h | h in rest ensures ms[0].end <= h.m.start {
        var i :| 0 <= i < |rest| && rest[i] == h;
        var j :| 0 <= j < |ms[1..]| && ms[1..][j] == h.m;
        assert ms[j + 1] == h.m;
      }
      if !AllSpace(ms[0].group) {
        var r := [Hit(k, ms[0])] + rest;
        assert forall i :: 0 < i < |r| ==> r[i] == rest[i - 1] && r[i] in rest;
      }
    }
  }

  /** The hits of the match lists `mss[k..]`, list by list, blank ones dropped. */
  function Tagged(mss: seq<seq<Match>>, k: nat): (r: seq<Hit>)
    requires k <= |mss|
    ensures forall i :: 0 <= i < |r| ==> k <= r[i].cue < |mss| && !AllSpace(r[i].m.group)
    decreases |mss| - k
  {
    if k == |mss| then []
    else
      var here := Keep(k, mss[k]);
      var rest := Tagged(mss, k + 1);
      var r := here + rest;
      assert forall i :: 0 <= i < |here| ==> r[i] == here[i];
      assert forall i :: |here| <= i < |r| ==> r[i] == rest[i - |here|];
      r
  }

  lemma {:induction false} TaggedSound(mss: seq<seq<Match>>, k: nat, i: nat)
    requires k <= |mss| && i < |Tagged(mss, k)|
    ensures Tagged(mss, k)[i].m in mss[Tagged(mss, k)[i].cue]
    decreases |mss| - k
  {
    var here := Keep(k, mss[k]);
    if i < |here| {
      assert Tagged(mss, k)[i] == here[i];
    } else {
      TaggedSound(mss, k + 1, i - |here|);
      assert Tagged(mss, k)[i] == Tagged(mss, k + 1)[i - |here|];
    }
  }

  lemma {:induction false} TaggedComplete(mss: seq<seq<Match>>, k: nat, j: nat, m: Match)
    requires k <= j < |mss| && m in mss[j] && !AllSpace(m.group)
    ensures Hit(j, m) in Tagged(mss, k)
    decreases |mss| - k
  {
    if j == k {
      var i :| 0 <= i < |mss[k]| && mss[k][i] == m;
      KeepComplete(k, mss[k], i);
    } else {
      TaggedComplete(mss, k + 1, j, m);
    }
  }

  lemma {:induction false} TaggedOrdered(mss: seq<seq<Match>>, k: nat)
    requires k <= |mss|
    requires forall j :: 0 <= j < |mss| ==> forall a, b :: 0 <= a < b < |mss[j]| ==> mss[j][a].end <= mss[j][b].start
    ensures forall i, j :: 0 <= i < j < |Tagged(mss, k)| ==> Before(Tagged(mss, k)[i], Tagged(mss, k)[j])
    decreases |mss| - k
  {
    if k < |mss| {
      var here := Keep(k, mss[k]);
      var rest := Tagged(mss, k + 1);
      KeepOrdered(k, mss[k]);
      TaggedOrdered(mss, k + 1);
      var r := here + rest;
      assert forall i :: 0 <= i < |here| ==> r[i] == here[i] && r[i].cue == k;
      assert forall i :: |here| <= i < |r| ==> r[i] == rest[i - |here|] && r[i].cue > k;
    }
  }

  /** The `finditer` matches of every pattern of a table, in table order. */
  function MatchTable(cues: seq<Cue>, stop: Stop, s: string): (r: seq<seq<Match>>)
    ensures |r| == |cues|
    ensures forall j :: 0 <= j < |cues| ==> r[j] == FindAll(cues[j], stop, s, 0)
  {
    seq(|cues|, j requires 0 <= j < |cues| => FindAll(cues[j], stop, s, 0))
  }

  /** All requirement clauses of a section: the `finditer` matches of every pattern in turn,
      pattern by pattern, blank ones dropped.  Matches of different patterns may overlap. */
  function Clauses(cues: seq<Cue>, stop: Stop, s: string): (r: seq<Hit>)
    ensures forall i :: 0 <= i < |r| ==> r[i].cue < |cues| && !AllSpace(r[i].m.group)
  {
    Tagged(MatchTable(cues, stop, s), 0)
  }

  /** Every clause is a `finditer` match of the pattern it is tagged with. */
  lemma ClausesSound(cues: seq<Cue>, stop: Stop, s: string, i: nat)
    requires i < |Clauses(cues, stop, s)|
    ensures Clauses(cues, stop, s)[i].m in FindAll(cues[Clauses(cues, stop, s)[i].cue], stop, s, 0)
  {
    TaggedSound(MatchTable(cues, stop, s), 0, i);
  }

  /** Overlapping cues are all kept: every non-blank `finditer` match of every pattern is a
      clause. */
  lemma ClausesComplete(cues: seq<Cue>, stop: Stop, s: string, j: nat, m: Match)
    requires j < |cues| && m in FindAll(cues[j], stop, s, 0) && !AllSpace(m.group)
    ensures Hit(j, m) in Clauses(cues, stop, s)
  {
    TaggedComplete(MatchTable(cues, stop, s), 0, j, m);
  }

  /** A text in which no cue matches anywhere has no clauses. */
  lemma NoClauses(cues: seq<Cue>, stop: Stop, s: string)
    requires forall j, p :: 0 <= j < |cues| ==> ClauseAt(cues[j], stop, s, p).None?
    ensures Clauses(cues, stop, s) == []
  {
    if |Clauses(cues, stop, s)| > 0 {
      ClausesSound(cues, stop, s, 0);
      assert false;
    }
  }

  /** Clauses come ordered by pattern index, then by position in the text. */
  lemma ClausesOrdered(cues: seq<Cue>, stop: Stop, s: string)
    ensures forall i, j :: 0 <= i < j < |Clauses(cues, stop, s)| ==>
              Before(Clauses(cues, stop, s)[i], Clauses(cues, stop, s)[j])
  {
    TaggedOrdered(MatchTable(cues, stop, s), 0);
  }

  /** The stripped requirement text of each hit. */
  function Texts(hits: seq<Hit>): (r: seq<string>)
    ensures |r| == |hits|
    ensures forall i :: 0 <= i < |r| ==> r[i] == Strip(hits[i].m.group)
  {
    seq(|hits|, i requires 0 <= i < |hits| => Strip(hits[i].m.group))
  }
}

=== FILE: rubric_parser.dfy ===
/** Rubric parsing of the BERT-based grader (`AIGrader` in grading_model.py): the rubric is cut
    into lines, and each line yields one or more criteria carrying the line's point value, a
    category and a keyword list. */
module RubricParser {
  import opened Wrappers
  import opened Text
  import Seqs
  import opened Patterns

  // ---------------------------------------------------------------------------------------
  // Point values (`_extract_points`).

  /** The point patterns, in the order they are tried. */
  const PointPatterns: seq<PointPattern> :=
    [CountThen("point"), CountThen("mark"), LabelThen("worth"), LabelThen("value:"), LabelThen("points:")]

  /** Points of a section in which no pattern matches. */
  const DefaultPoints: nat := 10

  /** Index of the first present value of `vs[k..]`, or `|vs|`. */
  function FirstSome(vs: seq<Option<nat>>, k: nat): (r: nat)
    requires k <= |vs|
    ensures k <= r <= |vs|
    ensures forall j :: k <= j < r ==> vs[j].None?
    ensures r < |vs| ==> vs[r].Some?
    decreases |vs| - k
  {
    if k == |vs| || vs[k].Some? then k else FirstSome(vs, k + 1)
  }

  /** `FirstSome` picks the first present value, and `|vs|` only when there is none. */
  lemma FirstSomeIsFirst(vs: seq<Option<nat>>)
    ensures (forall j :: 0 <= j < |vs| ==> vs[j].None?) ==> FirstSome(vs, 0) == |vs|
    ensures forall j :: 0 <= j < |vs| && vs[j].Some? && (forall j' :: 0 <= j' < j ==> vs[j'].None?) ==>
              FirstSome(vs, 0) == j
  {
  }

  /** The value of every point pattern on `section`, in list order. */
  function PatternValues(section: string): (vs: seq<Option<nat>>)
    ensures |vs| == |PointPatterns|
    ensures forall j :: 0 <= j < |vs| ==> vs[j] == PointValue(PointPatterns[j], section)
  {
    seq(|PointPatterns|, j requires 0 <= j < |PointPatterns| => PointValue(PointPatterns[j], section))
  }

  /** The point value of a section (`_extract_points`). */
  function ExtractPoints(section: string): nat {
    var vs := PatternValues(section);
    var j := FirstSome(vs, 0);
    if j < |vs| then vs[j].value else DefaultPoints
  }

  /** The point value is the number captured by the leftmost match of the first pattern (in
      list order) that matches anywhere, whatever numbers appear earlier in the text; 10 when
      no pattern matches. */
  lemma PointsOfFirstMatchingPattern(section: string)
    ensures (forall j :: 0 <= j < |PointPatterns| ==> PointValue(PointPatterns[j], section).None?) ==>
              ExtractPoints(section) == DefaultPoints
    ensures forall j :: 0 <= j < |PointPatterns| && PointValue(PointPatterns[j], section).Some? &&
                        (forall j' :: 0 <= j' < j ==> PointValue(PointPatterns[j'], section).None?) ==>
                        ExtractPoints(section) == PointValue(PointPatterns[j], section).value
  {
    FirstSomeIsFirst(PatternValues(section));
  }

  // ---------------------------------------------------------------------------------------
  // Requirements (`_extract_requirements`).

  /** The requirement cues, each followed by `\s+(.*?)[.]`, in the order they are tried. */
  const Indicators: seq<Cue> :=
    [Word("must"), Word("should"), NeedTo(false), Word("required to"),
     Word("demonstrate"), Word("explain"), Word("analyze"), Word("discuss")]

  /** The requirements of a section: the captured text of every cue match, pattern by pattern
      and then by position; when there is none, the whole stripped section (if not blank). */
  function ExtractRequirements(section: string): (r: seq<string>)
    ensures Strip(section) != [] ==> |r| >= 1
    ensures forall i :: 0 <= i < |r| ==> r[i] != [] && IsTrimmed(r[i])
  {
    var hits := Clauses(Indicators, Period, section);
    var found := Texts(hits);
    if found == [] && Strip(section) != [] then [Strip(section)] else found
  }

  /** The requirements are the stripped texts of the cue matches, one per match, ordered by
      cue and then by position in the section; the fallback is taken exactly when there is no
      match. */
  lemma RequirementsFromClauses(section: string)
    ensures Clauses(Indicators, Period, section) == [] ==>
              ExtractRequirements(section) == if Strip(section) == [] then [] else [Strip(section)]
    ensures |Clauses(Indicators, Period, section)| > 0 ==>
              |ExtractRequirements(section)| == |Clauses(Indicators, Period, section)|
    ensures |Clauses(Indicators, Period, section)| > 0 ==>
              forall i :: 0 <= i < |Clauses(Indicators, Period, section)| ==>
                ExtractRequirements(section)[i] == Strip(Clauses(Indicators, Period, section)[i].m.group)
    ensures forall i, j :: 0 <= i < j < |Clauses(Indicators, Period, section)| ==>
              Before(Clauses(Indicators, Period, section)[i], Clauses(Indicators, Period, section)[j])
  {
    ClausesOrdered(Indicators, Period, section);
  }

  /** When no cue matches anywhere in a non-blank section, the section itself is the only
      requirement. */
  lemma FallbackWhenNoCue(section: string)
    requires Strip(section) != []
    requires forall j, p :: 0 <= j < |Indicators| ==> ClauseAt(Indicators[j], Period, section, p).None?
    ensures ExtractRequirements(section) == [Strip(section)]
  {
    NoClauses(Indicators, Period, section);
  }

  /** Overlapping cues are all kept: the captured text of every non-blank `finditer` match of
      every cue is a requirement of the section. */
  lemma EveryCueMatchKept(section: string, j: nat, m: Match)
    requires j < |Indicators| && m in FindAll(Indicators[j], Period, section, 0) && !AllSpace(m.group)
    ensures Strip(m.group) in ExtractRequirements(section)
  {
    ClausesComplete(Indicators, Period, section, j, m);
    RequirementsFromClauses(section);
    var hits := Clauses(Indicators, Period, section);
    var i :| 0 <= i < |hits| && hits[i] == Hit(j, m);
    assert ExtractRequirements(section)[i] == Strip(m.group);
  }

  // ---------------------------------------------------------------------------------------
  // Categories (`_classify_requirement_type`).

  datatype Category = Analysis | Implementation | Understanding | Demonstration | General

  /** The category table, in the order the categories are tried. */
  const CategoryTable: seq<(Category, seq<string>)> := [
    (Analysis, ["analyze", "examine", "evaluate", "assess"]),
    (Implementation, ["implement", "create", "develop", "build"]),
    (Understanding, ["understand", "explain", "describe", "discuss"]),
    (Demonstration, ["demonstrate", "show", "display", "present"])
  ]

  /** Position of a category in the table (`General` comes after all of them). */
  function Rank(c: Category): nat {
    match c
    case Analysis => 0
    case Implementation => 1
    case Understanding => 2
    case Demonstration => 3
    case General => 4
  }

  /** Some keyword occurs as a substring of `text`. */
  predicate MentionsAny(text: string, keywords: seq<string>) {
    exists w :: w in keywords && Contains(text, w)
  }

  function FirstCategory(lower: string, k: nat): (r: nat)
    requires k <= |CategoryTable|
    ensures k <= r <= |CategoryTable|
    ensures forall j :: k <= j < r ==> !MentionsAny(lower, CategoryTable[j].1)
    ensures r < |CategoryTable| ==> MentionsAny(lower, CategoryTable[r].1)
    decreases |CategoryTable| - k
  {
    if k == |CategoryTable| || MentionsAny(lower, CategoryTable[k].1) then k
    else FirstCategory(lower, k + 1)
  }

  /** The category of a requirement (`_classify_requirement_type`). */
  function Classify(requirement: string): Category {
    var k := FirstCategory(LowerString(requirement), 0);
    if k < |CategoryTable| then CategoryTable[k].0 else General
  }

  /** The category is the first of the table one of whose keywords occurs in the lower-cased
      requirement, and `General` exactly when none does. */
  lemma ClassifyFirstMatch(requirement: string)
    ensures Classify(requirement) == General <==>
              forall j :: 0 <= j < |CategoryTable| ==> !MentionsAny(LowerString(requirement), CategoryTable[j].1)
    ensures Classify(requirement) != General ==>
              CategoryTable[Rank(Classify(requirement))].0 == Classify(requirement) &&
              MentionsAny(LowerString(requirement), CategoryTable[Rank(Classify(requirement))].1)
    ensures forall j :: 0 <= j < Rank(Classify(requirement)) && j < |CategoryTable| ==>
              !MentionsAny(LowerString(requirement), CategoryTable[j].1)
  {
  }

  // ---------------------------------------------------------------------------------------
  // Keywords (`_extract_key_concepts`).

  const StopWords: set<string> := {"the", "a", "an", "and", "or", "but", "in", "on", "at", "to", "for", "of"}

  predicate NotStopWord(w: string) {
    w !in StopWords
  }

  predicate LongEnough(w: string) {
    |w| > 3
  }

  /** What survives both filters of `_extract_key_concepts`. */
  predicate IsKeyword(w: string) {
    NotStopWord(w) && LongEnough(w)
  }

  /** Every stop word has at most three letters, so the length test alone decides. */
  lemma StopWordsAreShort(w: string)
    ensures IsKeyword(w) <==> LongEnough(w)
  {
  }

  /** The keywords of a requirement: its lower-cased whitespace-separated tokens that are not
      stop words and have more than three characters, in order and with repetitions. */
  function KeyConcepts(requirement: string): seq<string> {
    var words := Words(LowerString(requirement));
    var kept := Seqs.Filter(NotStopWord, words);
    Seqs.Filter(LongEnough, kept)
  }

  lemma {:induction false} TwoFiltersAreOne(ws: seq<string>)
    ensures Seqs.Filter(LongEnough, Seqs.Filter(NotStopWord, ws)) == Seqs.Filter(IsKeyword, ws)
  {
    if |ws| > 0 {
      TwoFiltersAreOne(ws[1..]);
    }
  }

  /** The keywords are exactly the tokens passing the filter, as a subsequence of the tokens
      with every repetition kept. */
  lemma KeyConceptsAreFilteredTokens(requirement: string)
    ensures forall w :: w in KeyConcepts(requirement) <==> w in Words(LowerString(requirement)) && IsKeyword(w)
    ensures Seqs.IsSubsequence(KeyConcepts(requirement), Words(LowerString(requirement)))
    ensures forall w :: multiset(KeyConcepts(requirement))[w] ==
              if IsKeyword(w) then multiset(Words(LowerString(requirement)))[w] else 0
  {
    var words := Words(LowerString(requirement));
    TwoFiltersAreOne(words);
    Seqs.FilterIsSubsequence(IsKeyword, words);
    Seqs.FilterCounts(IsKeyword, words);
    Seqs.FilterMembers(IsKeyword, words);
  }

  // ---------------------------------------------------------------------------------------
  // Criteria (`extract_rubric_criteria`).

  /** One gradable requirement; grading_model.py keeps the category under the key 'section'. */
  datatype Criterion = Criterion(requirement: string, points: nat, category: Category, keywords: seq<string>)

  predicate NonEmpty(s: string) {
    s != []
  }

  /** The stripped non-blank lines, in order. */
  function NonBlank(lines: seq<string>): (r: seq<string>)
    ensures forall i :: 0 <= i < |r| ==> r[i] != [] && IsTrimmed(r[i])
  {
    var stripped := Seqs.Map(Strip, lines);
    var r := Seqs.Filter(NonEmpty, stripped);
    Seqs.FilterMembers(NonEmpty, stripped);
    assert forall i :: 0 <= i < |r| ==> r[i] in stripped;
    r
  }

  /** Every kept piece is some line stripped, every line that is not blank is kept, and the
      order of the lines is kept. */
  lemma NonBlankLines(lines: seq<string>)
    ensures forall i :: 0 <= i < |NonBlank(lines)| ==>
              exists j :: 0 <= j < |lines| && NonBlank(lines)[i] == Strip(lines[j])
    ensures forall j :: 0 <= j < |lines| && Strip(lines[j]) != [] ==> Strip(lines[j]) in NonBlank(lines)
    ensures Seqs.IsSubsequence(NonBlank(lines), Seqs.Map(Strip, lines))
  {
    var stripped := Seqs.Map(Strip, lines);
    var r := NonBlank(lines);
    assert r == Seqs.Filter(NonEmpty, stripped);
    Seqs.FilterMembers(NonEmpty, stripped);
    Seqs.FilterIsSubsequence(NonEmpty, stripped);
    forall i | 0 <= i < |r|
      ensures exists j :: 0 <= j < |lines| && r[i] == Strip(lines[j])
    {
      assert r[i] in stripped;
      var j :| 0 <= j < |stripped| && stripped[j] == r[i];
    }
    forall j | 0 <= j < |lines| && Strip(lines[j]) != []
      ensures Strip(lines[j]) in r
    {
      assert stripped[j] in stripped;
    }
  }

  /** A line that is not blank is kept as often as it occurs, and nothing else is kept. */
  lemma NonBlankCounts(lines: seq<string>)
    ensures forall x :: multiset(NonBlank(lines))[x] == if x != [] then multiset(Seqs.Map(Strip, lines))[x] else 0
  {
    Seqs.FilterCounts(NonEmpty, Seqs.Map(Strip, lines));
  }

  /** The rubric's sections (`[s.strip() for s in rubric_text.split('\n') if s.strip()]`). */
  function Sections(rubric: string): (r: seq<string>)
    ensures forall i :: 0 <= i < |r| ==> r[i] != [] && IsTrimmed(r[i])
  {
    NonBlank(Split(rubric, "\n"))
  }

  /** The sections are exactly the non-blank lines of the rubric, stripped, in line order,
      with repeated lines kept as often as they occur. */
  lemma SectionsAreStrippedLines(rubric: string)
    ensures forall i :: 0 <= i < |Sections(rubric)| ==>
              exists j :: 0 <= j < |Split(rubric, "\n")| && Sections(rubric)[i] == Strip(Split(rubric, "\n")[j])
    ensures forall j :: 0 <= j < |Split(rubric, "\n")| && Strip(Split(rubric, "\n")[j]) != [] ==>
              Strip(Split(rubric, "\n")[j]) in Sections(rubric)
    ensures Seqs.IsSubsequence(Sections(rubric), Seqs.Map(Strip, Split(rubric, "\n")))
    ensures forall x :: x != [] ==>
              multiset(Sections(rubric))[x] == multiset(Seqs.Map(Strip, Split(rubric, "\n")))[x]
  {
    NonBlankCounts(Split(rubric, "\n"));
    var lines := Split(rubric, "\n");
    var r := NonBlank(lines);
    NonBlankLines(lines);
    assert Sections(rubric) == r;
    forall i | 0 <= i < |r|
      ensures exists j :: 0 <= j < |lines| && r[i] == Strip(lines[j])
    {
      var j :| 0 <= j < |lines| && r[i] == Strip(lines[j]);
    }
  }

  /** The criteria of one section: one per requirement, all with the section's point value. */
  function SectionCriteria(section: string): (r: seq<Criterion>)
    ensures |r| == |ExtractRequirements(section)|
    ensures forall i :: 0 <= i < |r| ==> r[i].requirement == ExtractRequirements(section)[i]
    ensures forall i :: 0 <= i < |r| ==> r[i].points == ExtractPoints(section)
  {
    CriteriaOf(ExtractRequirements(section), ExtractPoints(section))
  }

  /** One criterion per requirement, in order, each with the given points and the requirement's
      category and keywords. */
  function CriteriaOf(reqs: seq<string>, points: nat): (r: seq<Criterion>)
    ensures |r| == |reqs|
    ensures forall i :: 0 <= i < |r| ==> r[i].requirement == reqs[i] && r[i].points == points
  {
    seq(|reqs|, i requires 0 <= i < |reqs| => Criterion(reqs[i], points, Classify(reqs[i]), KeyConcepts(reqs[i])))
  }

  /** `extract_rubric_criteria`: the criteria of every section, section by section. */
  function ExtractRubricCriteria(rubric: string): seq<Criterion> {
    Seqs.FlatMap(SectionCriteria, Sections(rubric))
  }

  /** Each criterion of a rubric is the `j`-th criterion of its `k`-th section. */
  lemma CriterionFromSection(rubric: string, i: nat) returns (k: nat, j: nat)
    requires i < |ExtractRubricCriteria(rubric)|
    ensures k < |Sections(rubric)| && j < |SectionCriteria(Sections(rubric)[k])|
    ensures ExtractRubricCriteria(rubric)[i] == SectionCriteria(Sections(rubric)[k])[j]
  {
    k, j := Seqs.FlatMapOrigin(SectionCriteria, Sections(rubric), i);
  }

  /** A section's criteria carry exactly that section's point value and one of its
      requirements; values never bleed from one section into another. */
  lemma SectionCriterionOrigin(section: string, c: Criterion)
    requires c in SectionCriteria(section)
    ensures c.points == ExtractPoints(section)
    ensures c.requirement in ExtractRequirements(section)
    ensures c.category == Classify(c.requirement) && c.keywords == KeyConcepts(c.requirement)
  {
    var r := SectionCriteria(section);
    var i :| 0 <= i < |r| && r[i] == c;
    assert r[i] == Criterion(ExtractRequirements(section)[i], ExtractPoints(section),
                             Classify(ExtractRequirements(section)[i]), KeyConcepts(ExtractRequirements(section)[i]));
  }

  /** No non-blank line is dropped: the rubric yields at least one criterion per section, and
      every criterion of every section is one of the rubric's. */
  lemma RubricCriteriaCoverSections(rubric: string)
    ensures |ExtractRubricCriteria(rubric)| >= |Sections(rubric)|
    ensures forall k, j :: 0 <= k < |Sections(rubric)| && 0 <= j < |SectionCriteria(Sections(rubric)[k])| ==>
              SectionCriteria(Sections(rubric)[k])[j] in ExtractRubricCriteria(rubric)
  {
    var sections := Sections(rubric);
    forall k | 0 <= k < |sections|
      ensures |SectionCriteria(sections[k])| >= 1
    {
      StripTrimmed(sections[k]);
    }
    Seqs.FlatMapLength(SectionCriteria, sections);
    forall k, j | 0 <= k < |sections| && 0 <= j < |SectionCriteria(sections[k])|
      ensures SectionCriteria(sections[k])[j] in ExtractRubricCriteria(rubric)
    {
      SectionCriterionInRubric(rubric, k, j);
    }
  }

  /** The `j`-th criterion of section `k` is a criterion of the rubric. */
  lemma SectionCriterionInRubric(rubric: string, k: nat, j: nat)
    requires k < |Sections(rubric)| && j < |SectionCriteria(Sections(rubric)[k])|
    ensures SectionCriteria(Sections(rubric)[k])[j] in ExtractRubricCriteria(rubric)
  {
    Seqs.FlatMapContains(SectionCriteria, Sections(rubric), k, j);
  }

  /** The criteria of section `k` come whole and in order, after those of the sections before
      it and before those of the sections after it. */
  lemma SectionCriteriaInPlace(rubric: string, k: nat)
    requires k < |Sections(rubric)|
    ensures ExtractRubricCriteria(rubric) ==
              Seqs.FlatMap(SectionCriteria, Sections(rubric)[..k]) + SectionCriteria(Sections(rubric)[k]) +
              Seqs.FlatMap(SectionCriteria, Sections(rubric)[k + 1..])
  {
    Seqs.FlatMapAt(SectionCriteria, Sections(rubric), k);
  }
}

=== FILE: seqs.dfy ===
/** Generic sequence utilities: order-preserving filtering, subsequences and flattening. */
module Seqs {
  import opened Wrappers

  /** `a` can be obtained from `b` by deleting elements (order is kept). */
  predicate IsSubsequence<T(==)>(a: seq<T>, b: seq<T>)
    decreases |b|
  {
    |a| == 0 ||
    (|b| > 0 && if a[0] == b[0] then IsSubsequence(a[1..], b[1..]) else IsSubsequence(a, b[1..]))
  }

  /** Dropping the first element of a subsequence leaves a subsequence. */
  lemma {:induction false} SubsequenceTail<T>(a: seq<T>, b: seq<T>)
    requires |a| > 0 && IsSubsequence(a, b)
    ensures IsSubsequence(a[1..], b)
    decreases |b|, 0
  {
    assert b == [b[0]] + b[1..];
    if a[0] == b[0] {
      SubsequenceOfLonger(b[0], a[1..], b[1..]);
    } else {
      SubsequenceTail(a, b[1..]);
      SubsequenceOfLonger(b[0], a[1..], b[1..]);
    }
  }

  /** A subsequence of `b` is a subsequence of anything that extends `b` at the front. */
  lemma {:induction false} SubsequenceOfLonger<T>(x: T, a: seq<T>, b: seq<T>)
    requires IsSubsequence(a, b)
    ensures IsSubsequence(a, [x] + b)
    decreases |b|, 1
  {
    assert ([x] + b)[1..] == b;
    if |a| > 0 && a[0] == x {
      SubsequenceTail(a, b);
    }
  }

  /** The elements of `xs` that satisfy `p`, in their original order (a Python list comprehension
      with an `if` clause). */
  function Filter<T(==,!new)>(p: T -> bool, xs: seq<T>): (r: seq<T>)
    ensures |r| <= |xs|
  {
    if |xs| == 0 then []
    else
      var rest := Filter(p, xs[1..]);
      if p(xs[0]) then [xs[0]] + rest else rest
  }

  /** A value is kept exactly when it occurs in the input and satisfies `p`. */
  lemma {:induction false} FilterMembers<T(!new)>(p: T -> bool, xs: seq<T>)
    ensures forall x :: x in Filter(p, xs) <==> x in xs && p(x)
  {
    if |xs| > 0 {
      FilterMembers(p, xs[1..]);
      assert xs == [xs[0]] + xs[1..];
    }
  }

  /** Filtering keeps every occurrence of a kept value and none of a dropped one, so duplicates
      survive. */
  lemma {:induction false} FilterCounts<T(!new)>(p: T -> bool, xs: seq<T>)
    ensures forall x :: multiset(Filter(p, xs))[x] == if p(x) then multiset(xs)[x] else 0
  {
    if |xs| > 0 {
      FilterCounts(p, xs[1..]);
      assert xs == [xs[0]] + xs[1..];
    }
  }

  /** Filtering only deletes elements: the result is a subsequence of the input. */
  lemma {:induction false} FilterIsSubsequence<T(!new)>(p: T -> bool, xs: seq<T>)
    ensures IsSubsequence(Filter(p, xs), xs)
  {
    if |xs| > 0 {
      FilterIsSubsequence(p, xs[1..]);
      var rest := Filter(p, xs[1..]);
      if p(xs[0]) {
        assert ([xs[0]] + rest)[1..] == rest;
      } else if |rest| > 0 {
        // every kept element satisfies p, so rest cannot start with the dropped xs[0]
        FilterMembers(p, xs[1..]);
        assert rest[0] in rest;
      }
    }
  }

  /** Concatenation of a sequence of sequences. */
  function Flatten<T>(xss: seq<seq<T>>): (r: seq<T>)
    ensures forall xs :: xs in xss ==> |xs| <= |r|
  {
    if |xss| == 0 then [] else xss[0] + Flatten(xss[1..])
  }

  /** `f` applied to every element, in order. */
  function Map<A, B>(f: A -> B, xs: seq<A>): (r: seq<B>)
    ensures |r| == |xs| && forall i :: 0 <= i < |xs| ==> r[i] == f(xs[i])
  {
    seq(|xs|, i requires 0 <= i < |xs| => f(xs[i]))
  }

  /** `f` applied to every element in order, stopping at the first failure (a loop whose body
      may raise). */
  function TryMap<A, B, E>(f: A -> Result<B, E>, xs: seq<A>): (r: Result<seq<B>, E>)
    ensures r.Failure? <==> exists i :: 0 <= i < |xs| && f(xs[i]).Failure?
    ensures r.Success? ==> |r.value| == |xs| && forall i :: 0 <= i < |xs| ==> r.value[i] == f(xs[i]).value
  {
    if |xs| == 0 then Success([])
    else
      match f(xs[0])
      case Failure(e) => Failure(e)
      case Success(y) =>
        assert forall i :: 1 <= i < |xs| ==> xs[1..][i - 1] == xs[i];
        match TryMap(f, xs[1..])
        case Failure(e) => Failure(e)
        case Success(ys) => Success([y] + ys)
  }

  /** The loop `for x in xs: if p(x): out.append(f(x))`. */
  function FilterMap<A, B>(p: A -> bool, f: A -> B, xs: seq<A>): seq<B> {
    if |xs| == 0 then []
    else (if p(xs[0]) then [f(xs[0])] else []) + FilterMap(p, f, xs[1..])
  }

  /** The loop maps exactly the kept elements, in order. */
  lemma {:induction false} FilterMapIsMapOfFilter<A(!new), B>(p: A -> bool, f: A -> B, xs: seq<A>)
    ensures FilterMap(p, f, xs) == Map(f, Filter(p, xs))
  {
    if |xs| > 0 {
      FilterMapIsMapOfFilter(p, f, xs[1..]);
      var rest := Filter(p, xs[1..]);
      if p(xs[0]) {
        assert Filter(p, xs) == [xs[0]] + rest;
        assert Map(f, [xs[0]] + rest) == [f(xs[0])] + Map(f, rest);
      }
    }
  }

  /** `f` applied to every element, the results concatenated in order. */
  function FlatMap<A, B>(f: A -> seq<B>, xs: seq<A>): seq<B> {
    if |xs| == 0 then [] else f(xs[0]) + FlatMap(f, xs[1..])
  }

  /** Every element of a `FlatMap` is the `j`-th output of some input `k`. */
  lemma {:induction false} FlatMapOrigin<A, B>(f: A -> seq<B>, xs: seq<A>, i: nat) returns (k: nat, j: nat)
    requires i < |FlatMap(f, xs)|
    ensures k < |xs| && j < |f(xs[k])|
    ensures FlatMap(f, xs)[i] == f(xs[k])[j]
  {
    var here := f(xs[0]);
    if i < |here| {
      k, j := 0, i;
    } else {
      var k', j' := FlatMapOrigin(f, xs[1..], i - |here|);
      k, j := k' + 1, j';
    }
  }

  /** `FlatMap` distributes over concatenation. */
  lemma {:induction false} FlatMapAppend<A, B>(f: A -> seq<B>, a: seq<A>, b: seq<A>)
    ensures FlatMap(f, a + b) == FlatMap(f, a) + FlatMap(f, b)
  {
    if |a| == 0 {
      assert a + b == b;
    } else {
      assert (a + b)[1..] == a[1..] + b;
      FlatMapAppend(f, a[1..], b);
    }
  }

  /** The outputs of input `k` sit, whole and in order, between those of the inputs before it
      and those of the inputs after it. */
  lemma FlatMapAt<A, B>(f: A -> seq<B>, xs: seq<A>, k: nat)
    requires k < |xs|
    ensures FlatMap(f, xs) == FlatMap(f, xs[..k]) + f(xs[k]) + FlatMap(f, xs[k + 1..])
  {
    var a, x, b := xs[..k], [xs[k]], xs[k + 1..];
    assert xs == a + (x + b);
    FlatMapAppend(f, a, x + b);
    FlatMapAppend(f, x, b);
    assert x[1..] == [];
    assert FlatMap(f, x) == f(xs[k]);
  }

  /** The `j`-th output of input `k` is an element of the `FlatMap`, at its place. */
  lemma FlatMapContains<A, B>(f: A -> seq<B>, xs: seq<A>, k: nat, j: nat)
    requires k < |xs| && j < |f(xs[k])|
    ensures |FlatMap(f, xs[..k])| + j < |FlatMap(f, xs)|
    ensures FlatMap(f, xs)[|FlatMap(f, xs[..k])| + j] == f(xs[k])[j]
    ensures f(xs[k])[j] in FlatMap(f, xs)
  {
    FlatMapAt(f, xs, k);
  }

  /** When no input yields anything, there is no output. */
  lemma {:induction false} FlatMapNone<A, B>(f: A -> seq<B>, xs: seq<A>)
    requires forall k :: 0 <= k < |xs| ==> f(xs[k]) == []
    ensures FlatMap(f, xs) == []
  {
    if |xs| > 0 {
      assert forall k :: 1 <= k < |xs| ==> xs[1..][k - 1] == xs[k];
      FlatMapNone(f, xs[1..]);
    }
  }

  /** When every input yields something, there are at least as many outputs as inputs. */
  lemma {:induction false} FlatMapLength<A, B>(f: A -> seq<B>, xs: seq<A>)
    requires forall k :: 0 <= k < |xs| ==> |f(xs[k])| >= 1
    ensures |FlatMap(f, xs)| >= |xs|
  {
    if |xs| > 0 {
      assert forall k :: 1 <= k < |xs| ==> xs[1..][k - 1] == xs[k];
      FlatMapLength(f, xs[1..]);
    }
  }
}

=== FILE: text.dfy ===
/** Character classes and the Python `str` operations StuGrader relies on, over `seq<char>`.
    Whitespace, case and digits are the ASCII subset of Python's Unicode definitions. */
module Text {
  import opened Wrappers
  import Seqs

  /** Python's `str.isspace()` on ASCII: tab, line feed, vertical tab, form feed, carriage
      return, the separators U+001C..U+001F, and space.  It is also what regex `\s`,
      `split()` and `strip()` use. */
  predicate IsSpace(c: char) {
    c == ' ' || '\t' <= c <= '\r' || '\U{1C}' <= c <= '\U{1F}'
  }

  predicate NotSpace(c: char) {
    !IsSpace(c)
  }

  /** Regex `\d` restricted to ASCII. */
  predicate IsDigit(c: char) {
    '0' <= c <= '9'
  }

  predicate AllSpace(s: string) {
    forall k :: 0 <= k < |s| ==> IsSpace(s[k])
  }

  predicate AllDigits(s: string) {
    forall k :: 0 <= k < |s| ==> IsDigit(s[k])
  }

  /** Neither starts nor ends with whitespace: what `strip()` returns. */
  predicate IsTrimmed(s: string) {
    |s| == 0 || (!IsSpace(s[0]) && !IsSpace(s[|s| - 1]))
  }

  /** ASCII `str.lower()` on one character. */
  function Lower(c: char): (r: char)
    ensures !('A' <= r <= 'Z')
    ensures IsSpace(r) <==> IsSpace(c)
    ensures 'a' <= c <= 'z' || !('A' <= c <= 'Z') ==> r == c
  {
    if 'A' <= c <= 'Z' then (c as int + 32) as char else c
  }

  function LowerString(s: string): (r: string)
    ensures |r| == |s|
    ensures forall k :: 0 <= k < |s| ==> r[k] == Lower(s[k])
  {
    seq(|s|, k requires 0 <= k < |s| => Lower(s[k]))
  }

  /** End of the maximal run of characters satisfying `p` that starts at `i` (a greedy `p*`). */
  function RunEnd(s: string, i: nat, p: char -> bool): (j: nat)
    requires i <= |s|
    ensures i <= j <= |s|
    ensures forall k :: i <= k < j ==> p(s[k])
    ensures j == |s| || !p(s[j])
    decreases |s| - i
  {
    if i < |s| && p(s[i]) then RunEnd(s, i + 1, p) else i
  }

  /** Start of the maximal run of characters satisfying `p` that ends at `j`, not before `lo`. */
  function RunStart(s: string, lo: nat, j: nat, p: char -> bool): (i: nat)
    requires lo <= j <= |s|
    ensures lo <= i <= j
    ensures forall k :: i <= k < j ==> p(s[k])
    ensures i == lo || !p(s[i - 1])
    decreases j
  {
    if j > lo && p(s[j - 1]) then RunStart(s, lo, j - 1, p) else j
  }

  /** Python's `str.strip()`: drop leading and trailing whitespace. */
  function Strip(s: string): (r: string)
    ensures IsTrimmed(r)
    ensures |r| <= |s|
    ensures r == [] <==> AllSpace(s)
  {
    var i := RunEnd(s, 0, IsSpace);
    var j := RunStart(s, i, |s|, IsSpace);
    s[i..j]
  }

  /** Stripping removes only whitespace, and only at the ends: `s` is some whitespace, then
      `Strip(s)`, then some whitespace. */
  lemma StripRemovesOuterSpace(s: string) returns (i: nat)
    ensures i + |Strip(s)| <= |s| && s[i..i + |Strip(s)|] == Strip(s)
    ensures AllSpace(s[..i]) && AllSpace(s[i + |Strip(s)|..])
  {
    i := RunEnd(s, 0, IsSpace);
    var j := RunStart(s, i, |s|, IsSpace);
    assert s[i..i + (j - i)] == s[i..j];
    assert AllSpace(s[..i]) && AllSpace(s[j..]);
  }

  /** Stripping leaves an already trimmed string alone; in particular stripping is idempotent. */
  lemma StripTrimmed(s: string)
    requires IsTrimmed(s)
    ensures Strip(s) == s
  {
  }

  /** Python's `s.startswith(p)`. */
  predicate StartsWith(s: string, p: string) {
    |p| <= |s| && s[..|p|] == p
  }

  /** Python's `s.endswith(p)`. */
  predicate EndsWith(s: string, p: string) {
    |p| <= |s| && s[|s| - |p|..] == p
  }

  /** `pat` occurs in `s` starting at index `i`. */
  predicate OccursAt(s: string, pat: string, i: nat) {
    i + |pat| <= |s| && s[i..i + |pat|] == pat
  }

  /** Python's `s.find(pat, start)`: the leftmost occurrence at or after `from`. */
  function Find(s: string, pat: string, from: nat): (r: Option<nat>)
    ensures r.Some? ==> from <= r.value && OccursAt(s, pat, r.value)
    ensures r.Some? ==> forall k :: from <= k < r.value ==> !OccursAt(s, pat, k)
    ensures r.None? ==> forall k :: from <= k ==> !OccursAt(s, pat, k)
    decreases |s| + 1 - from
  {
    if from + |pat| > |s| then None
    else if s[from..from + |pat|] == pat then Some(from)
    else Find(s, pat, from + 1)
  }

  /** Python's `pat in s`. */
  function Contains(s: string, pat: string): (b: bool)
    ensures b <==> exists k :: OccursAt(s, pat, k)
  {
    var r := Find(s, pat, 0);
    assert r.Some? ==> OccursAt(s, pat, r.value);
    r.Some?
  }

  /** The middle piece of a concatenation occurs right after the first piece. */
  lemma OccursInMiddle(a: string, b: string, c: string)
    ensures OccursAt(a + b + c, b, |a|)
    ensures Contains(a + b + c, b)
  {
    var s := a + b + c;
    assert s[|a|..|a| + |b|] == b;
    assert OccursAt(s, b, |a|);
  }

  /** An occurrence inside a prefix is an occurrence in the whole string. */
  lemma OccursInPrefix(s: string, n: nat, pat: string, k: nat)
    requires n <= |s| && OccursAt(s[..n], pat, k)
    ensures OccursAt(s, pat, k)
  {
    assert s[..n][k..k + |pat|] == s[k..k + |pat|];
  }

  /** Python's `s.split(sep)` for a non-empty separator: cut at every leftmost, non-overlapping
      occurrence of `sep`. */
  function Split(s: string, sep: string): (r: seq<string>)
    requires |sep| > 0
    ensures |r| >= 1
    ensures forall piece :: piece in r ==> !Contains(piece, sep)
    decreases |s|
  {
    match Find(s, sep, 0)
    case None => [s]
    case Some(i) =>
      forall k | OccursAt(s[..i], sep, k) ensures false {
        OccursInPrefix(s, i, sep, k);
      }
      [s[..i]] + Split(s[i + |sep|..], sep)
  }

  /** Every cut is at the leftmost occurrence: no piece but the last, followed by the separator,
      holds the separator anywhere before the cut. With `SplitJoin` this fixes the pieces. */
  lemma {:induction false} SplitLeftmost(s: string, sep: string)
    requires |sep| > 0
    ensures forall i :: 0 <= i < |Split(s, sep)| - 1 ==>
              forall k :: 0 <= k < |Split(s, sep)[i]| ==> !OccursAt(Split(s, sep)[i] + sep, sep, k)
    decreases |s|
  {
    match Find(s, sep, 0)
    case None =>
    case Some(c) =>
      var rest := Split(s[c + |sep|..], sep);
      SplitLeftmost(s[c + |sep|..], sep);
      assert Split(s, sep) == [s[..c]] + rest;
      FirstCutLeftmost(s, sep, c);
  }

  /** The first piece, followed by the separator, holds it only at the cut. */
  lemma FirstCutLeftmost(s: string, sep: string, c: nat)
    requires |sep| > 0 && Find(s, sep, 0) == Some(c)
    ensures forall k :: 0 <= k < c ==> !OccursAt(s[..c] + sep, sep, k)
  {
    assert s[..c] + sep == s[..c + |sep|];
    forall k | 0 <= k < c && OccursAt(s[..c] + sep, sep, k) ensures false {
      OccursInPrefix(s, c + |sep|, sep, k);
    }
  }

  /** Python's `sep.join(pieces)`. */
  function Join(pieces: seq<string>, sep: string): string {
    if |pieces| == 0 then []
    else if |pieces| == 1 then pieces[0]
    else pieces[0] + sep + Join(pieces[1..], sep)
  }

  /** Splitting loses nothing: joining the pieces with the separator gives back the input. */
  lemma {:induction false} SplitJoin(s: string, sep: string)
    requires |sep| > 0
    ensures Join(Split(s, sep), sep) == s
    decreases |s|
  {
    match Find(s, sep, 0)
    case None =>
    case Some(i) =>
      var rest := Split(s[i + |sep|..], sep);
      SplitJoin(s[i + |sep|..], sep);
      assert Split(s, sep) == [s[..i]] + rest;
      assert ([s[..i]] + rest)[1..] == rest;
      assert Join(Split(s, sep), sep) == s[..i] + sep + Join(rest, sep);
      assert s == s[..i] + sep + s[i + |sep|..];
  }

  /** Python's `s.replace(pat, "")`: drop every leftmost, non-overlapping occurrence of `pat`. */
  function RemoveAll(s: string, pat: string): (r: string)
    requires |pat| > 0
    ensures |r| <= |s|
    ensures !Contains(s, pat) ==> r == s
    ensures Contains(s, pat) ==> |r| < |s|
    decreases |s|
  {
    match Find(s, pat, 0)
    case None => s
    case Some(i) => s[..i] + RemoveAll(s[i + |pat|..], pat)
  }

  /** Removing `pat` is the same as splitting on it and gluing the pieces back together. */
  lemma {:induction false} RemoveAllIsSplitJoin(s: string, pat: string)
    requires |pat| > 0
    ensures RemoveAll(s, pat) == Join(Split(s, pat), "")
    decreases |s|
  {
    match Find(s, pat, 0)
    case None =>
    case Some(i) =>
      var rest := Split(s[i + |pat|..], pat);
      RemoveAllIsSplitJoin(s[i + |pat|..], pat);
      assert Split(s, pat) == [s[..i]] + rest;
      assert ([s[..i]] + rest)[1..] == rest;
  }

  /** Python's `s.split()` with no argument: scanning left to right, whitespace is skipped and
      each maximal run of non-whitespace characters becomes one word. */
  function Words(s: string): (r: seq<string>)
    decreases |s|
  {
    if |s| == 0 then []
    else if IsSpace(s[0]) then Words(s[1..])
    else
      var j := RunEnd(s, 0, NotSpace);
      [s[..j]] + Words(s[j..])
  }

  /** Every word is a non-empty run of non-whitespace characters. */
  lemma {:induction false} WordsAreRuns(s: string)
    ensures forall w :: w in Words(s) ==> |w| > 0 && forall k :: 0 <= k < |w| ==> NotSpace(w[k])
    decreases |s|
  {
    if |s| > 0 {
      if IsSpace(s[0]) {
        WordsAreRuns(s[1..]);
      } else {
        var j := RunEnd(s, 0, NotSpace);
        WordsAreRuns(s[j..]);
        assert Words(s) == [s[..j]] + Words(s[j..]);
      }
    }
  }

  /** `split()` keeps every non-whitespace character, in order: gluing the words together
      gives the input with its whitespace deleted. */
  lemma {:induction false} WordsKeepContent(s: string)
    ensures Seqs.Flatten(Words(s)) == Seqs.Filter(NotSpace, s)
    decreases |s|
  {
    if |s| > 0 {
      if IsSpace(s[0]) {
        WordsKeepContent(s[1..]);
      } else {
        var j := RunEnd(s, 0, NotSpace);
        var rest := Words(s[j..]);
        WordsKeepContent(s[j..]);
        assert ([s[..j]] + rest)[1..] == rest;
        FilterKeepsRun(NotSpace, s, j);
      }
    }
  }

  /** The ensures of `RunEnd` pin it down: the only end of a maximal run starting at `i`. */
  lemma RunEndUnique(s: string, i: nat, p: char -> bool, j: nat)
    requires i <= j <= |s|
    requires forall k :: i <= k < j ==> p(s[k])
    requires j == |s| || !p(s[j])
    ensures RunEnd(s, i, p) == j
  {
  }

  /** A text of whitespace only has no words. */
  lemma {:induction false} WordsOfSpace(s: string)
    requires AllSpace(s)
    ensures Words(s) == []
    decreases |s|
  {
    if |s| > 0 {
      WordsOfSpace(s[1..]);
    }
  }

  /** A run of non-whitespace characters is a single word. */
  lemma WordsOfWord(w: string)
    requires |w| > 0 && forall k :: 0 <= k < |w| ==> NotSpace(w[k])
    ensures Words(w) == [w]
  {
    RunEndUnique(w, 0, NotSpace, |w|);
    assert w[..|w|] == w;
  }

  /** Any whitespace character separates words: the words of `a`, a whitespace character and
      `b` are the words of `a` followed by the words of `b`. With `WordsOfSpace` and
      `WordsOfWord` this determines `Words` on every string, so the words are exactly the
      maximal non-whitespace runs. */
  lemma {:induction false} WordsAtSpace(a: string, c: char, b: string)
    requires IsSpace(c)
    ensures Words(a + [c] + b) == Words(a) + Words(b)
    decreases |a|
  {
    if |a| == 0 {
      assert a + [c] + b == [c] + b;
      assert ([c] + b)[1..] == b;
    } else if IsSpace(a[0]) {
      WordsAtSpace(a[1..], c, b);
      SpaceBeforeSpace(a, c, b);
    } else {
      var j := RunEnd(a, 0, NotSpace);
      WordsAtSpace(a[j..], c, b);
      WordBeforeSpace(a, c, b, j);
    }
  }

  /** Leading whitespace of `a` is skipped in `a + [c] + b` as in `a`. */
  lemma SpaceBeforeSpace(a: string, c: char, b: string)
    requires |a| > 0 && IsSpace(a[0])
    requires Words(a[1..] + [c] + b) == Words(a[1..]) + Words(b)
    ensures Words(a + [c] + b) == Words(a) + Words(b)
  {
    var s := a + [c] + b;
    assert s[0] == a[0];
    assert s[1..] == a[1..] + [c] + b;
  }

  /** A word of `a` that opens `a + [c] + b` ends where it ends in `a`, since `c` is
      whitespace; the rest follows from the words after it. */
  lemma WordBeforeSpace(a: string, c: char, b: string, j: nat)
    requires IsSpace(c) && j == RunEnd(a, 0, NotSpace)
    requires |a| > 0 && NotSpace(a[0])
    requires Words(a[j..] + [c] + b) == Words(a[j..]) + Words(b)
    ensures Words(a + [c] + b) == Words(a) + Words(b)
  {
    var s := a + [c] + b;
    RunBeforeSpace(a, c, b, j);
    WordsFirst(s, j);
    WordsFirst(a, j);
    var w, rest, tail := a[..j], Words(a[j..]), Words(b);
    assert [w] + (rest + tail) == ([w] + rest) + tail;
  }

  /** A run of non-whitespace characters of `a` is not extended by a whitespace `c` after it. */
  lemma RunBeforeSpace(a: string, c: char, b: string, j: nat)
    requires IsSpace(c) && j == RunEnd(a, 0, NotSpace)
    ensures RunEnd(a + [c] + b, 0, NotSpace) == j
    ensures (a + [c] + b)[..j] == a[..j] && (a + [c] + b)[j..] == a[j..] + [c] + b
  {
    var s := a + [c] + b;
    assert forall k :: 0 <= k < |a| ==> s[k] == a[k];
    assert s[|a|] == c;
    RunEndUnique(s, 0, NotSpace, j);
  }

  /** One step of `Words` at a non-whitespace character: the first word ends at `j`. */
  lemma WordsFirst(s: string, j: nat)
    requires |s| > 0 && NotSpace(s[0]) && j == RunEnd(s, 0, NotSpace)
    ensures Words(s) == [s[..j]] + Words(s[j..])
  {
  }

  /** Filtering a text whose first `j` characters are all kept. */
  lemma {:induction false} FilterKeepsRun(p: char -> bool, s: string, j: nat)
    requires j <= |s| && forall k :: 0 <= k < j ==> p(s[k])
    ensures Seqs.Filter(p, s) == s[..j] + Seqs.Filter(p, s[j..])
    decreases j
  {
    if j > 0 {
      var t := s[1..];
      forall k | 0 <= k < j - 1
        ensures p(t[k])
      {
        assert t[k] == s[k + 1];
      }
      FilterKeepsRun(p, t, j - 1);
      assert s[..j] == [s[0]] + t[..j - 1];
      assert t[j - 1..] == s[j..];
    }
  }

  /** Numeric value of an ASCII digit. */
  function DigitValue(c: char): (d: nat)
    requires IsDigit(c)
    ensures d < 10
  {
    (c as int) - ('0' as int)
  }

  function DigitChar(d: nat): (c: char)
    requires d < 10
    ensures IsDigit(c) && DigitValue(c) == d
  {
    ((d + '0' as int) as char)
  }

  /** Python's `int(ds)` on a run of decimal digits (leading zeros allowed). */
  function DigitsValue(ds: string): nat
    requires AllDigits(ds)
  {
    if |ds| == 0 then 0 else DigitsValue(ds[..|ds| - 1]) * 10 + DigitValue(ds[|ds| - 1])
  }

  /** Python's `str(n)` / f-string formatting of a non-negative integer. */
  function NatToString(n: nat): (r: string)
    ensures |r| > 0 && AllDigits(r)
    ensures r[0] == '0' ==> n == 0
  {
    if n < 10 then [DigitChar(n)] else NatToString(n / 10) + [DigitChar(n % 10)]
  }

  /** Formatting a number and reading it back with `int(...)` gives the number again. */
  lemma {:induction false} DigitsRoundTrip(n: nat)
    ensures DigitsValue(NatToString(n)) == n
  {
    if n >= 10 {
      var r := NatToString(n);
      assert r[..|r| - 1] == NatToString(n / 10);
      DigitsRoundTrip(n / 10);
    }
  }
}

=== FILE: text_processor.dfy ===
/** Requirement extraction with type tags (`TextProcessor.extract_requirements` in
    text_processor.py): blank-line separated sections, a default of 0 points, no fallback. */
module TextProcessor {
  import opened Text
  import Seqs
  import opened Patterns

  /** The requirement types: 'required', 'skill', 'content', 'analysis', 'explanation'. */
  datatype RequirementType = Required | Skill | Content | Analysis | Explanation

  /** The requirement patterns, each cue followed by `\s+(.*?)(?=\.|$)`, with their types, in
      the order they are tried. */
  const Table: seq<(Cue, RequirementType)> := [
    (Word("must"), Required),
    (Word("should"), Required),
    (NeedTo(true), Required),
    (Word("demonstrate"), Skill),
    (Word("include"), Content),
    (Word("analyze"), Analysis),
    (Word("explain"), Explanation)
  ]

  const Cues: seq<Cue> := seq(|Table|, i requires 0 <= i < |Table| => Table[i].0)

  datatype Requirement = Requirement(text: string, kind: RequirementType, points: nat, required: bool)

  /** The point value of a section: the number before the first "point", else 0. */
  function SectionPoints(section: string): nat {
    match PointValue(CountThen("point"), section)
    case Some(n) => n
    case None => 0
  }

  /** The requirements of one section: one per non-blank capture, tagged with the type of the
      pattern that produced it. */
  function SectionRequirements(section: string): (r: seq<Requirement>)
    ensures forall i :: 0 <= i < |r| ==> r[i].text != [] && IsTrimmed(r[i].text)
    ensures forall i :: 0 <= i < |r| ==> r[i].points == SectionPoints(section)
    ensures forall i :: 0 <= i < |r| ==> (r[i].required <==> r[i].kind == Required)
  {
    var hits := Clauses(Cues, PeriodOrEnd, section);
    var points := SectionPoints(section);
    seq(|hits|, i requires 0 <= i < |hits| =>
      var kind := Table[hits[i].cue].1;
      Requirement(Strip(hits[i].m.group), kind, points, kind == Required))
  }

  /** `extract_requirements`: the requirements of every blank-line separated section. */
  function ExtractRequirements(rubric: string): seq<Requirement> {
    Seqs.FlatMap(SectionRequirements, Split(rubric, "\n\n"))
  }

  /** Each requirement carries the type of the pattern that captured it, and is required
      exactly when that pattern is one of must / should / need(s) to; the requirements come
      ordered by pattern and then by position. */
  lemma RequirementsTaggedByPattern(section: string)
    ensures |SectionRequirements(section)| == |Clauses(Cues, PeriodOrEnd, section)|
    ensures forall i :: 0 <= i < |SectionRequirements(section)| ==>
              var hit := Clauses(Cues, PeriodOrEnd, section)[i];
              SectionRequirements(section)[i].text == Strip(hit.m.group) &&
              SectionRequirements(section)[i].kind == Table[hit.cue].1 &&
              (SectionRequirements(section)[i].required <==> hit.cue < 3)
    ensures forall i, j :: 0 <= i < j < |Clauses(Cues, PeriodOrEnd, section)| ==>
              Before(Clauses(Cues, PeriodOrEnd, section)[i], Clauses(Cues, PeriodOrEnd, section)[j])
  {
    ClausesOrdered(Cues, PeriodOrEnd, section);
  }

  /** There is no fallback: a rubric in which no pattern matches in any section yields no
      requirement at all, whatever its text. */
  lemma NoFallback(rubric: string)
    requires forall k, j, p :: 0 <= k < |Split(rubric, "\n\n")| && 0 <= j < |Cues| ==>
               ClauseAt(Cues[j], PeriodOrEnd, Split(rubric, "\n\n")[k], p).None?
    ensures ExtractRequirements(rubric) == []
  {
    var sections := Split(rubric, "\n\n");
    forall k | 0 <= k < |sections|
      ensures SectionRequirements(sections[k]) == []
    {
      NoClauses(Cues, PeriodOrEnd, sections[k]);
    }
    Seqs.FlatMapNone(SectionRequirements, sections);
  }

  /** A section without an "N point(s)" mention is worth 0 points; otherwise it is worth the
      number of the leftmost mention. */
  lemma SectionPointsDefault(section: string)
    ensures (forall i :: 0 <= i <= |section| ==> PointMatchAt(CountThen("point"), section, i).None?) ==>
              SectionPoints(section) == 0
    ensures forall i :: (0 <= i <= |section| && PointMatchAt(CountThen("point"), section, i).Some? &&
                         (forall j :: 0 <= j < i ==> PointMatchAt(CountThen("point"), section, j).None?)) ==>
              SectionPoints(section) == PointMatchAt(CountThen("point"), section, i).value
  {
  }

  /** Every requirement is the `j`-th of some section `k` and carries that section's points. */
  lemma RequirementFromSection(rubric: string, i: nat) returns (k: nat, j: nat)
    requires i < |ExtractRequirements(rubric)|
    ensures k < |Split(rubric, "\n\n")| && j < |SectionRequirements(Split(rubric, "\n\n")[k])|
    ensures ExtractRequirements(rubric)[i] == SectionRequirements(Split(rubric, "\n\n")[k])[j]
    ensures ExtractRequirements(rubric)[i].points == SectionPoints(Split(rubric, "\n\n")[k])
    ensures ExtractRequirements(rubric)[i].text != [] && IsTrimmed(ExtractRequirements(rubric)[i].text)
    ensures ExtractRequirements(rubric)[i].required <==> ExtractRequirements(rubric)[i].kind == Required
  {
    k, j := Seqs.FlatMapOrigin(SectionRequirements, Split(rubric, "\n\n"), i);
  }
}

=== FILE: wrappers.dfy ===
/** Failure-carrying results used throughout the StuGrader model. */
module Wrappers {

  /** A value that may be absent, e.g. the result of a regular-expression search. */
  datatype Option<+T> = None | Some(value: T)

  /** A computation that either produces a value or raises an error. */
  datatype Result<+T, +E> = Success(value: T) | Failure(error: E)
}
